=== FILE: README.md ===
# Kyiv outage-schedule notifier: a Dafny model

The program (`main.py`) downloads a JSON feed of planned power outages for
Kyiv. It renders the outage schedule of two consumer groups ("GPV12.1" and
"GPV18.1") for today and tomorrow as Ukrainian text and posts the text to a
Telegram channel. Once every part of a revision's message has been posted,
the saved content hash keeps later runs from posting that revision again.
A run that fails after posting some parts saves nothing, so the next run over
the same revision posts those parts again. A hash that holds a carriage
return or has whitespace at either end does not read back as itself, so
every run posts its revision again.

This project models the deterministic core of that pipeline and proves
properties about it:

- **Schedule** (`schedule.dfy`). `build_schedule` turns the 24 hourly status
  codes of one day into 48 half-hour on/off slots, then merges the slots into
  maximal periods of equal state.
- **Clock** (`clock.dfy`). `format_slot_time` writes slot boundaries as
  `HH:MM`, with the end of the day written `24:00`.
- **Render** (`render.dfy`). `format_hours` writes durations with the
  Ukrainian agreement of "година". `format_schedule_message` builds the text
  of one day: a header, one line per period, and the on and off totals.
- **Report** (`report.dfy`). `format_full_message` takes the two earliest
  days and joins days with `\n---\n` and groups with `\n===\n`.
  `send_telegram_message` cuts a message longer than 4000 characters at the
  group separator and posts the parts in order until one fails.
- **Gate** (`gate.dfy`). `main` skips a feed whose content hash equals the
  saved one, and saves the new hash only after every part was posted.
- Supporting modules: `numerals.dfy` (Python's `str(n)` for naturals and
  reading it back), `strings.dfy` (Python's `join`, `split`, `replace(pat, "")`
  and `strip`) and `wrappers.dfy` (`Option`).

Modelling choices:

- Durations are counted in half hours (`nat`). The source's float `hours`
  (`0.5 * slots`) is always a multiple of one half, so Python prints it
  exactly. `FormatHours` writes it as Python does: `3` for a whole value after
  the `int` conversion, `2.5` otherwise.
- A period keeps its start and end as slot numbers. The source stores them
  already written by `format_slot_time`; here they are written when the line
  is rendered, with the same function, so the text is the same.
- `hours` in a period becomes `halfHours == end - start`.
- The feed's day keys are decimal UNIX timestamps that the source reads with
  `int(x)`. The model keys days by that `int` value directly, so two keys
  with the same value are one day here (see "## Left out").
- `datetime.fromtimestamp`, which depends on the local time zone, becomes
  the parameter `dateOf`. It gives the `%d.%m` text and the weekday.
- The download becomes the parameter `fetched`. The hash file becomes the
  `Notifier` class's field `stored`. Reading it back applies what a
  text-mode read does: each `"\r\n"` and each lone `'\r'` becomes `'\n'`
  (`Strings.UniversalNewlines`); writing leaves `'\n'` as it is, as on a POSIX
  system. A hash without `'\r'` therefore reads back as written on any
  system. On Windows a text-mode write would also turn `'\n'` into `"\r\n"`,
  so a hash holding `"\r\n"` reads back differently than on POSIX; it is
  never recognised on either system, because what is read back has no `'\r'`.
  The presence of the credentials becomes `configured`. The outcome of one
  HTTP post becomes the function `post`.

Hour label "1" covers 00:00-01:00 only. Hour "1" off and every other hour
on gives the off period 00:00-01:00 (`Schedule.FirstHourOffExample`). An off
period 00:00-02:00 needs hours "1" and "2" both off
(`Schedule.TwoHoursOffExample`).

## Model

| member | source | states |
|---|---|---|
| Schedule.Interpret | main.py:109-130 | a half hour is off exactly for "no" and for "first" (first half) or "second" (second half); every other code, known ("yes", "maybe", "mfirst", "msecond") or unknown, leaves power on |
| Schedule.StatusAt | main.py:101-102 | `day_data.get(str(hour), "yes")`: the code stored under the hour's label, "yes" when the label is absent; `Schedule.EncodeSlots`, `Schedule.MissingHourIsOn` and `Schedule.UnreadKeyIgnored` carry its meaning |
| Schedule.EncodeSlots | main.py:98-133 | the loop over hour labels 1..24 yields 48 slots; slots 2(h-1) and 2(h-1)+1 are the two halves of the status read for label h; the result is the slot specification `Slots(day)` |
| Schedule.OnlyHourKeysRead | main.py:100-102 | two days that agree on the statuses of labels "1".."24" give the same slots: any other key of the day data is ignored |
| Schedule.UnreadKeyIgnored | main.py:100-102 | adding or changing an entry whose key is none of "1".."24" leaves the slots as they are |
| Schedule.MissingHourIsOn | main.py:102 | an hour label absent from the day data is on in both its halves (default "yes") |
| Schedule.HourKeyIs | main.py:101 | the key `str(hour)` names that hour and no other |
| Schedule.RunEnd | main.py:143-157 | the end of a run is the first later slot of a different state, or the end of the slots; every slot before it has the run's state |
| Schedule.MergeSlots | main.py:135-166 | the single left-to-right scan that closes a period at each change of state, plus the final period, returns exactly the run-length merge `Merge(slots)` |
| Schedule.ScanStep | main.py:143-157 | one step of the scan keeps its state: a slot of a different state closes the current period and starts a new run there, a slot of the same state extends the run |
| Schedule.ScanEnd | main.py:159-166 | when the scan reaches the end, the closed periods followed by the final period are the whole merge |
| Schedule.MergeIffMaximalCover | main.py:135-168 | a list of periods is the merge of the slots if and only if it tiles them from slot 0 to the end, each period uniform in state with duration end - start, and neighbours differ in state |
| Schedule.RunsFromTiles | main.py:135-168 | the merge from any slot on tiles the rest of the day with uniform periods whose neighbours differ in state |
| Schedule.TilesFromUnique | main.py:135-168 | any tiling of the rest of the day by maximal uniform periods is the merge from that slot |
| Schedule.FirstTileIsRun | main.py:143-157 | the first period of such a tiling is the run that starts there, ending at the first slot of the other state |
| Schedule.CoverTotals | main.py:146-160 | in a maximal cover the on-periods' durations sum to the number of on-slots and the off-periods' to the number of off-slots; together they are all slots |
| Schedule.BuildSchedule | main.py:82-168 | the periods of a day are its merged slots: a maximal cover that starts at 00:00, ends at 24:00, and whose on and off durations sum to 24 hours |
| Schedule.TwoHoursOffExample | main.py:100-166 | hours "1" and "2" off, the rest absent: off 00:00-02:00 (4 halves), then on to 24:00 (44 halves) |
| Schedule.FirstHourOffExample | main.py:100-166 | hour "1" off, hour "2" on, the rest absent: off 00:00-01:00 only, then on to 24:00 |
| Schedule.FirstHalfOffSlots | main.py:115-118 | with hour "5" set to "first", slot 8 (04:00-04:30) is the only off slot |
| Schedule.FirstHalfOffExample | main.py:115-166 | with hour "5" set to "first", three periods: on, off for the single half hour 04:00-04:30, on |
| Clock.Pad2 | main.py:53 | the `02d` format is all digits, at least two of them, exactly two below 100 |
| Clock.FormatSlotTime | main.py:44-53 | every boundary within the day is written as five characters with ':' in the middle |
| Clock.Pad2Reads | main.py:53 | the padded number reads back as itself |
| Clock.InDayTimeReads | main.py:46-53 | a boundary before 24:00 is written as the zero-padded hour slot/2 and minute 0 or 30 |
| Clock.EndOfDayReads | main.py:50-51 | the end of the day reads as hour 24, minute 0 |
| Clock.SlotTimeRoundTrip | main.py:44-53 | the `HH:MM` text of every boundary 0..48 reads back (60 HH + MM) / 30 as that boundary |
| Clock.EndOfDayText | main.py:50-51 | "24:00" is written for the end of the day (boundary 48) and for no other boundary |
| Clock.SlotTimeInjective | main.py:44-53 | different boundaries of the day are written differently |
| Clock.SlotTimeExamples | main.py:44-53 | 0 is "00:00", 9 is "04:30", 47 is "23:30", 48 is "24:00" |
| Numerals.NatToString | main.py:101 | `str(n)` is a non-empty digit string with no leading zero, one digit exactly below 10 |
| Numerals.ParseNatToString | main.py:101 | the decimal text of n reads back as n |
| Numerals.NatToStringInjective | main.py:101 | different numbers have different text |
| Numerals.LastDigits | main.py:36-38 | the last character of `str(n)` is the units digit and the one before it the tens digit |
| Render.HourFormByNumeralEnding | main.py:36-41 | the mod-10 / mod-100 rule picks the same noun form as the grammar rule on the written numeral (ends in 1 but not 11: "година"; ends in 2-4 but not 12-14: "години"; else "годин") |
| Render.UnitsEnding | main.py:36-38 | `str(n)` ends in digit d exactly when n % 10 == d |
| Render.TeensEnding | main.py:36-38 | `str(n)` ends in "1d" exactly when n % 100 == 10 + d |
| Render.HoursNumberRoundTrip | main.py:27-33 | the number written in a duration phrase ("3" or "2.5") reads back as the exact duration |
| Render.FractionalTakesPaucal | main.py:31-33 | a fractional duration is always followed by "години", whatever its last digit |
| Render.HourForm | main.py:36-41 | the mod-10 / mod-100 rule for whole hours; `Render.HourFormByNumeralEnding` proves it equals the rule on the written numeral |
| Render.HoursNumber | main.py:27-33 | the number as Python prints the duration: `str(k)` for a whole k, `k.5` otherwise; `Render.HoursNumberRoundTrip` proves it reads back as the duration |
| Render.HoursForm | main.py:28-41 | the noun form for a duration: "години" for every fractional value, otherwise the integer rule of `Render.HourForm` on the whole hours; `Render.FractionalTakesPaucal` and `Render.FormatHoursByGrammar` carry its meaning |
| Render.FormatHours | main.py:25-41 | `format_hours`: the number, a space and the noun form; `Render.FormatHoursByGrammar` carries its meaning |
| Render.FormatHoursByGrammar | main.py:25-41 | every duration phrase is a number that reads back as the duration, a space, and the noun form the grammar rule picks for that numeral, "години" after a fractional number |
| Render.HourFormExamples | main.py:36-41 | 1 and 21 hours take "година"; 2, 3, 4, 22 hours and 0.5 and 2.5 hours take "години"; 0, 5, 11, 12, 14, 20 hours take "годин" |
| Render.OneHourPhrase | main.py:36-37 | 1 hour is "1 година" |
| Render.TwentyTwoHoursPhrase | main.py:38-39 | 22 hours is "22 години" |
| Render.HalfHourPhrase | main.py:28-33 | half an hour is "0.5 години" |
| Render.ElevenHoursPhrase | main.py:40-41 | 11 hours is "11 годин" |
| Render.FormatScheduleMessage | main.py:171-199 | the loop collecting one line per period and the running on/off totals produces the day text: header, the period lines in order, a blank line, then "Світло є" and "Світла нема" with the total on and off durations, joined by newlines; this closed form is `Render.DayText` |
| Render.TotalsLines | main.py:195-197 | the three closing lines of a day: an empty line, then `Render.OnTotal` and `Render.OffTotal`; `Render.DayTextEndsWithTotals` places them at the end of the day text |
| Render.OnTotal | main.py:196 | "Світло є " followed by the total on duration as `format_hours` writes it; `Render.TotalsHaveNoEquals` and `Report.DayReportTotals` carry its properties |
| Render.OffTotal | main.py:197 | "Світла нема " followed by the total off duration as `format_hours` writes it; `Render.TotalsHaveNoEquals` and `Report.DayReportTotals` carry its properties |
| Render.CollectLines | main.py:173-194 | the loop over the periods yields the header followed by one line per period in order, and the summed on and off durations |
| Render.NextPeriodLine | main.py:184-188 | one more period adds exactly its own line at the end |
| Render.NextPeriodTotals | main.py:190-194 | one more period adds its duration to the total of its own state and leaves the other total alone |
| Render.DayTextHasNoEquals | main.py:171-199 | a day's text contains no '=' unless its date text or group name does |
| Render.HeaderHasNoEquals | main.py:173-180 | the header adds no '=' of its own |
| Render.Header | main.py:173-180 | the first line: "today" or "tomorrow", the date text, the weekday name and the group number with "GPV" removed; `Report.GroupNumbersShown` and `Render.HeaderHasNoEquals` carry its properties |
| Render.PeriodLine | main.py:186-188 | one period: the on or off mark, the start and end clock texts and the duration phrase; `Render.PeriodLineHasNoEquals` and the `Clock` and `FormatHours` lemmas carry its properties |
| Render.PeriodLineHasNoEquals | main.py:186-188 | a period line contains no '=' |
| Render.HeadedLinesHaveNoEquals | main.py:180-188 | the header and period lines contain no '=' when the header has none |
| Render.SlotTimeHasNoEquals | main.py:44-53 | a clock text contains no '=' |
| Render.HoursHaveNoEquals | main.py:25-41 | a duration phrase contains no '=' |
| Render.TotalsHaveNoEquals | main.py:196-197 | the two totals lines contain no '=' |
| Render.DayTextEndsWithTotals | main.py:195-199 | the day text is the header and period lines, a blank line, the on total line and the off total line, joined by newlines |
| Report.GroupNumbersShown | main.py:177-178 | the header shows group "GPV12.1" as "12.1" and "GPV18.1" as "18.1" |
| Report.MinKey | main.py:210 | the smallest key is a key and no key is smaller |
| Report.Earliest | main.py:210-218 | today and tomorrow are at most two days, all of them keys of the feed |
| Report.EarliestIff | main.py:210-218 | a day list is the chosen one if and only if it holds the (up to) two smallest keys, ascending, as many as there are keys up to two, each smaller than every key left out |
| Report.EarliestFirstIsLeast | main.py:210-225 | "today" is the smallest key |
| Report.EarliestSecondIsNextLeast | main.py:210-218 | "tomorrow" is the smallest of the remaining keys |
| Report.EarliestUnique | main.py:210-218 | at most one day list meets that description |
| Report.FormatFullMessage | main.py:202-234 | no message exactly when the feed has no days; otherwise, for each group in order, the reports of today and tomorrow that have data, joined by "\n---\n", and the non-empty group sections joined by "\n===\n"; this closed form is `Report.FullMessage` |
| Report.HasDay | main.py:219-221 | `if not day_data: continue`: a group is reported for a day only when its day data is present and not empty; `Report.GroupDaysAreReports` carries its meaning |
| Report.DayReport | main.py:219-228 | one day's text: the merged schedule of the group's day data, rendered with that day's date, weekday and "today" flag; `Report.DayReportTotals` and `Report.GroupDaysHaveNoEquals` carry its properties |
| Report.DayReportTotals | main.py:219-229 | every day report ends with the on and off total lines, and the two totals add up to the whole day, 48 half hours |
| Report.ChunksRestoreMessage | main.py:246-251 | a message of at most 4000 characters is one part; a longer one is cut into parts that contain no "\n===\n" and that, joined again with it, give back the message |
| Report.Chunks | main.py:246-251 | the parts of a message: the message itself up to 4000 characters, its split at "\n===\n" otherwise; `Report.ChunksRestoreMessage` carries its meaning |
| Report.LongMessageSplitsAtGroups | main.py:246-251 | when the dates contain no '=', a message over 4000 characters is posted as exactly its group sections, in order |
| Report.GroupDaysHaveNoEquals | main.py:215-229 | when the group name and the date texts contain no '=', a group's day reports contain no '=' |
| Report.GroupDaysAreReports | main.py:215-229 | every text in a group's day list is the report of one of the chosen days that has data for that group |
| Report.SectionsHaveNoEquals | main.py:215-232 | when the date texts contain no '=', no group section contains '=' |
| Report.AttemptsStopAtFirstFailure | main.py:253-268 | the parts posted are a prefix of the parts; all but the last succeeded, and if the prefix stops early its last part failed |
| Report.Attempts | main.py:253-268 | the parts the loop posts, in order: each part is posted, and the loop goes on to the next only after a success; `Report.AttemptsStopAtFirstFailure` and `Report.AttemptsAfterSuccesses` carry its meaning |
| Report.AttemptsAfterSuccesses | main.py:253-268 | after k successful posts, the attempts are those k parts followed by the attempts on the rest |
| Report.PostParts | main.py:253-270 | the post loop succeeds exactly when every part posts, and it posts the parts in order up to and including the first failure |
| Report.SendMessage | main.py:237-270 | without credentials nothing is posted and the send fails; otherwise the send succeeds exactly when every chunk of the message posts |
| Gate.SavedHashRecognisedIff | main.py:67-73 | a hash that was saved is recognised by the next run exactly when it holds no carriage return (the text-mode read turns one into a line feed) and stripping whitespace leaves it unchanged |
| Gate.FirstRunIsNew | main.py:72-73 | with no hash file every feed revision is new, the empty hash included |
| Gate.CachedHash | main.py:67-73 | `get_cached_hash`: nothing without a file, otherwise the file's text after the text-mode newline translation, stripped; its meaning for saved hashes is `Gate.SavedHashRecognisedIff` |
| Gate.IsNewRevision | main.py:282-285 | `content_hash == cached_hash` negated: the feed counts as new unless the saved hash, as read back, equals its hash; `Gate.SavedHashRecognisedIff` and `Gate.FirstRunIsNew` carry its meaning |
| Gate.Notifier.Run | main.py:273-308 | failed fetch, unchanged hash, and empty or missing message each end the run with nothing posted and the saved hash untouched; otherwise the run delivers exactly when every chunk posts, and only a delivery replaces the saved hash with the feed's |
| Gate.RepeatedRun | main.py:282-305 | once a first run over a feed has delivered, the saved hash is the feed's after a second run over it, and that second run reports no updates exactly when the hash has no carriage return and no surrounding whitespace; otherwise it ends in a delivery or a failed delivery, as it posts the same message again |
| Strings.FindFrom | main.py:251 | the result is the first occurrence of the pattern at or after the start, or none when there is none |
| Strings.Split | main.py:251 | a split yields at least one piece |
| Strings.JoinSplit | main.py:251 | joining the pieces of a split with the separator restores the text |
| Strings.SplitAtFirst | main.py:251 | where the separator first occurs, a split is the text before it followed by the split of the text after it |
| Strings.SplitPartsAvoidSeparator | main.py:251 | no piece of a split contains the separator |
| Strings.SplitJoin | main.py:234-251 | splitting a join gives back the parts when the separator's second character differs from its first and occurs in no part |
| Strings.SeparatorFirstAfter | main.py:251 | in part + separator + rest, the first separator is the one after the part when the part lacks the separator's second character |
| Strings.JoinChars | main.py:199 | a join contains no character that is absent from the parts and the separator |
| Strings.Join | main.py:199 | `sep.join(parts)`; `Strings.JoinSplit`, `Strings.SplitJoin`, `Strings.JoinAppend` and `Strings.JoinChars` carry its properties |
| Strings.JoinAppend | main.py:199 | joining two non-empty lists of parts is joining each and putting the separator between them |
| Strings.RemoveAll | main.py:178 | removing a pattern never lengthens the text nor adds a character |
| Strings.RemoveAllIsJoinOfSplit | main.py:178 | `s.replace(pat, "")` equals `"".join(s.split(pat))`: the leftmost non-overlapping occurrences are removed and nothing else |
| Strings.RemoveAllBefore | main.py:178 | text before the first occurrence of the pattern is kept as it is |
| Strings.RemoveAllAbsent | main.py:178 | text without the pattern is unchanged |
| Strings.RemoveAllPrefix | main.py:178 | a leading occurrence of the pattern is removed |
| Strings.AbsentWithoutFirstChar | main.py:178 | a pattern whose first character is missing from the text does not occur in it |
| Strings.TrimStart | main.py:71 | the result is a suffix of the text that does not start with whitespace, the whole text exactly when it does not start with whitespace |
| Strings.TrimStartDropsSpace | main.py:71 | every character that trimming the front removes is whitespace |
| Strings.TrimEnd | main.py:71 | the result is a prefix of the text that does not end with whitespace, the whole text exactly when it does not end with whitespace |
| Strings.TrimEndDropsSpace | main.py:71 | every character that trimming the end removes is whitespace |
| Strings.StripFixedIff | main.py:71 | stripping leaves text unchanged exactly when it is empty or neither end is whitespace |
| Strings.Strip | main.py:71 | `s.strip()`: the result neither starts nor ends with whitespace; `Strings.StripKeepsSlice` and the two drop lemmas say what it removes |
| Strings.StripKeepsSlice | main.py:71 | what strip keeps is one contiguous slice of the text |
| Strings.StripDropsLeadingSpace | main.py:71 | everything in front of that slice is whitespace |
| Strings.StripDropsTrailingSpace | main.py:71 | everything behind that slice is whitespace |
| Strings.UniversalNewlines | main.py:70-71 | the text as a text-mode read returns it contains no carriage return, and text without one is returned unchanged |

## Left out

- Fetching the feed (`fetch_data`) and the HTTP posts are left out as I/O. The download's result is the parameter `fetched`, and each post's success is the parameter `post`. A failed request, an HTTP error status and a JSON that parses to an empty document all become `fetched == None`.
- The request timeouts, the payload's `chat_id` and `parse_mode`, the bot URL and all console output are left out. They do not affect the outcome.
- Reading and writing the hash file are left out as I/O; the file is the field `Notifier.stored`. An I/O error other than a missing file is not modelled (the source does not catch it).
- The Windows text-mode write, which turns `'\n'` into `"\r\n"`, is not modelled; the model writes the hash as a POSIX system does. It changes what is read back only for a hash that holds `'\r'`, and such a hash is never recognised on either system.
- `datetime.fromtimestamp` is left out: it depends on the machine's time zone. It is the parameter `dateOf`, so the date text and weekday are whatever the local clock gives.
- Day keys are modelled by their `int` value. A key that `int()` rejects makes the source raise `ValueError` in the sort; `int()` also accepts forms such as `" 17"`, `"+17"`, `"1_7"` and non-ASCII digits. The model cannot express a rejected key.
- Report.Earliest: two distinct keys with the same value, such as `"17"` and `"017"`, are two days in the source; `sorted(..., key=int)[:2]` can pick both, and the same date is then reported as today and as tomorrow. The model's feed maps each value to one day, so it does not capture that case.
- Feed values of the wrong JSON type are not modelled. The model's types assume the documented shape. Examples are a day entry that is not a mapping, or a status code that is not a string.
- Report.SendMessage: when the very first post raises an exception (network error or timeout), the source's error handler reads the unassigned `response` and raises `UnboundLocalError`, so the whole run crashes. The model treats this as a failed send. In both cases nothing more is posted and the hash is not saved.
- Report.FormatFullMessage: the source's `not day_data` also skips a group entry that is `None` or another falsy JSON value. The model's day data is always a mapping, so only an absent or empty mapping is skipped.
- Gate.Notifier.Run: a missing `meta.contentHash` defaults to "" in the source. The model's feed always carries a hash, and "" is one of the values it may take.

=== FILE: clock.dfy ===
/**
 * Clock text of a half-hour slot boundary (main.py `format_slot_time`):
 * boundary `s` is `s * 30` minutes after midnight, written `HH:MM`, and the
 * end of the day is written `24:00` rather than wrapping to `00:00`.
 */
module Clock {

  import opened Numerals

  /** The number of half-hour slots in a day. */
  const SlotsPerDay: nat := 48

  /** Python's `f"{n:02d}"`: at least two digits, zero-padded. */
  function Pad2(n: nat): (t: string)
    ensures AllDigits(t) && |t| >= 2
    ensures n < 100 ==> |t| == 2
  {
    if n < 10 then "0" + NatToString(n) else NatToString(n)
  }

  function FormatSlotTime(slot: nat): (t: string)
    ensures slot <= SlotsPerDay ==> |t| == 5 && t[2] == ':'
  {
    var totalMinutes := slot * 30;
    var hours := totalMinutes / 60;
    var minutes := totalMinutes % 60;
    if hours == 24 then "24:00" else Pad2(hours) + ":" + Pad2(minutes)
  }

  /** The slot boundary an `HH:MM` text names, counted in half hours from midnight. */
  function ClockToSlot(t: string): nat
    requires |t| == 5 && AllDigits(t[..2]) && AllDigits(t[3..])
  {
    (60 * ParseNat(t[..2]) + ParseNat(t[3..])) / 30
  }

  lemma {:induction false} Pad2Reads(n: nat)
    requires n < 100
    ensures ParseNat(Pad2(n)) == n
  {
    ParseNatToString(n);
    var t := NatToString(n);
    if n < 10 {
      var p := "0" + t;
      assert p[..1] == "0";
      assert ParseNat(p[..0]) == 0;
      assert ParseNat(p[..1]) == 0;
    }
  }

  /** A boundary before the end of the day is written `HH:MM` from its hour and minute. */
  lemma {:induction false} InDayTimeReads(slot: nat)
    requires slot < SlotsPerDay
    ensures var t := FormatSlotTime(slot);
      && AllDigits(t[..2]) && AllDigits(t[3..])
      && ParseNat(t[..2]) == slot / 2 && ParseNat(t[3..]) == 30 * (slot % 2)
  {
    var t := FormatSlotTime(slot);
    var hours, minutes := slot / 2, 30 * (slot % 2);
    assert slot * 30 / 60 == hours && slot * 30 % 60 == minutes;
    assert t == Pad2(hours) + ":" + Pad2(minutes);
    Pad2Reads(hours);
    Pad2Reads(minutes);
    assert t[..2] == Pad2(hours);
    assert t[3..] == Pad2(minutes);
  }

  /** The end of the day is written `24:00`, which reads as hour 24, minute 0. */
  lemma EndOfDayReads()
    ensures var t := FormatSlotTime(SlotsPerDay);
      && AllDigits(t[..2]) && AllDigits(t[3..])
      && ParseNat(t[..2]) == 24 && ParseNat(t[3..]) == 0
  {
    var t := FormatSlotTime(SlotsPerDay);
    assert t == "24:00";
    assert t[..2] == "24" && t[3..] == "00";
    assert ParseNat("24") == 24 by {
      assert "24"[..1] == "2";
      assert ParseNat("2") == 2 by { assert "2"[..0] == ""; }
    }
    assert ParseNat("00") == 0 by {
      assert "00"[..1] == "0";
      assert ParseNat("0") == 0 by { assert "0"[..0] == ""; }
    }
  }

  /** Every boundary of the day is written as `HH:MM` and reads back as itself. */
  lemma SlotTimeRoundTrip(slot: nat)
    requires slot <= SlotsPerDay
    ensures var t := FormatSlotTime(slot);
      && AllDigits(t[..2]) && AllDigits(t[3..])
      && ClockToSlot(t) == slot
  {
    if slot < SlotsPerDay {
      InDayTimeReads(slot);
    } else {
      EndOfDayReads();
    }
  }

  /** Within the day, `24:00` is written for the end of the day and for no other boundary. */
  lemma EndOfDayText(slot: nat)
    requires slot <= SlotsPerDay
    ensures FormatSlotTime(slot) == "24:00" <==> slot == SlotsPerDay
  {
    SlotTimeRoundTrip(slot);
    SlotTimeRoundTrip(SlotsPerDay);
  }

  /** Different boundaries of the day are written differently. */
  lemma SlotTimeInjective(a: nat, b: nat)
    requires a <= SlotsPerDay && b <= SlotsPerDay
    requires FormatSlotTime(a) == FormatSlotTime(b)
    ensures a == b
  {
    SlotTimeRoundTrip(a);
    SlotTimeRoundTrip(b);
  }

  lemma SlotTimeExamples()
    ensures FormatSlotTime(0) == "00:00" && FormatSlotTime(9) == "04:30"
    ensures FormatSlotTime(47) == "23:30" && FormatSlotTime(48) == "24:00"
  {
    assert Pad2(0) == "00" && Pad2(4) == "04" && Pad2(30) == "30" by {
      assert NatToString(30) == NatToString(3) + [Digit(0)];
    }
    assert Pad2(23) == "23" by { assert NatToString(23) == NatToString(2) + [Digit(3)]; }
  }
}

=== FILE: gate.dfy ===
/**
 * main.py `main`: the revision gate. A run reports only a feed revision
 * whose content hash differs from the one saved by the last successful
 * delivery, and saves the new hash only when every part was posted.
 */
module Gate {

  import opened Wrappers
  import opened Strings
  import opened Report

  /** The parts of the feed document a run reads: `meta.contentHash` and `fact.data`. */
  datatype Feed = Feed(contentHash: string, fact: FactData)

  /** How a run ended. */
  datatype RunOutcome = FetchFailed | NoUpdates | NoMessage | Delivered | DeliveryFailed

  /**
   * `get_cached_hash`: the hash file's text as a text-mode read gives it
   * (line breaks translated to `'\n'`), with surrounding whitespace
   * stripped; nothing when there is no file.
   */
  function CachedHash(stored: Option<string>): Option<string> {
    match stored
    case None => None
    case Some(text) => Some(Strip(UniversalNewlines(text)))
  }

  /** `content_hash != cached_hash`: the feed is a revision not yet delivered. */
  predicate IsNewRevision(stored: Option<string>, hash: string) {
    CachedHash(stored) != Some(hash)
  }

  /**
   * A hash saved by a delivery is recognised by the next run exactly when
   * it holds no carriage return and has no whitespace at either end;
   * otherwise every run reports it again.
   */
  lemma SavedHashRecognisedIff(hash: string)
    ensures !IsNewRevision(Some(hash), hash) <==> '\r' !in hash && Strip(hash) == hash
  {
    StripKeepsSlice(UniversalNewlines(hash));
  }

  /** Before any delivery every revision is new, the empty hash included. */
  lemma FirstRunIsNew(hash: string)
    ensures IsNewRevision(None, hash)
  {
  }

  /** The process and its hash file. */
  class Notifier {

    /** The contents of the hash file, `None` when it does not exist. */
    var stored: Option<string>

    constructor (stored: Option<string>)
      ensures this.stored == stored
    {
      this.stored := stored;
    }

    /**
     * One run of `main`. `fetched` is the outcome of `fetch_data` (`None`
     * when the download failed or the document is empty), `dateOf` stands
     * for `datetime.fromtimestamp`, `configured` for the presence of the
     * credentials and `post` for the outcome of posting one part.
     */
    method Run(fetched: Option<Feed>, dateOf: int -> DateInfo, configured: bool, post: string -> bool)
      returns (outcome: RunOutcome, ghost posted: seq<string>)
      modifies this
      ensures fetched.None? ==> outcome == FetchFailed
      ensures fetched.Some? && !IsNewRevision(old(stored), fetched.value.contentHash) ==> outcome == NoUpdates
      ensures fetched.Some? && IsNewRevision(old(stored), fetched.value.contentHash) ==>
        var message := FullMessage(fetched.value.fact, dateOf);
        if message.None? || message.value == "" then outcome == NoMessage
        else
          && (outcome == Delivered || outcome == DeliveryFailed)
          && (outcome == Delivered <==> configured && AllPosted(Chunks(message.value), post))
          && posted == (if configured then Attempts(Chunks(message.value), post) else [])
      ensures outcome != Delivered && outcome != DeliveryFailed ==> posted == []
      ensures stored == if outcome == Delivered then Some(fetched.value.contentHash) else old(stored)
    {
      posted := [];
      if fetched.None? {
        return FetchFailed, posted;
      }
      var data := fetched.value;
      var contentHash := data.contentHash;
      var cachedHash := CachedHash(stored);
      if cachedHash == Some(contentHash) {
        return NoUpdates, posted;
      }
      var message := FormatFullMessage(data.fact, dateOf);
      if message.None? || message.value == "" {
        return NoMessage, posted;
      }
      var ok;
      ok, posted := SendMessage(message.value, configured, post);
      if ok {
        stored := Some(contentHash);
        outcome := Delivered;
      } else {
        outcome := DeliveryFailed;
      }
    }
  }

  /**
   * Two runs over the same feed: once the first has delivered, the saved
   * hash is the feed's after the second, and the second reports no updates
   * exactly when the saved hash reads back as itself; otherwise it posts
   * the same message again.
   */
  method RepeatedRun(notifier: Notifier, feed: Feed, dateOf: int -> DateInfo, configured: bool, post: string -> bool)
    returns (first: RunOutcome, second: RunOutcome)
    modifies notifier
    ensures first == Delivered ==> notifier.stored == Some(feed.contentHash)
    ensures first == Delivered ==>
      (second == NoUpdates <==> '\r' !in feed.contentHash && Strip(feed.contentHash) == feed.contentHash)
    ensures first == Delivered && second != NoUpdates ==> second == Delivered || second == DeliveryFailed
  {
    ghost var posted;
    first, posted := notifier.Run(Some(feed), dateOf, configured, post);
    second, posted := notifier.Run(Some(feed), dateOf, configured, post);
    if first == Delivered {
      SavedHashRecognisedIff(feed.contentHash);
    }
  }
}

=== FILE: numerals.dfy ===
/**
 * Decimal text of natural numbers, as Python's `str(n)` and `f"{n}"`
 * write a non-negative `int`, and the reading of such text back.
 */
module Numerals {

  predicate IsDigit(c: char) {
    '0' <= c <= '9'
  }

  predicate AllDigits(s: string) {
    forall i :: 0 <= i < |s| ==> IsDigit(s[i])
  }

  function Digit(d: nat): (c: char)
    requires d < 10
    ensures IsDigit(c)
  {
    ('0' as int + d) as char
  }

  function DigitValue(c: char): (d: nat)
    requires IsDigit(c)
    ensures d < 10 && Digit(d) == c
  {
    c as int - '0' as int
  }

  /** `str(n)` for a non-negative int: no sign, no leading zeros. */
  function NatToString(n: nat): (s: string)
    ensures 1 <= |s| && AllDigits(s)
    ensures |s| == 1 <==> n < 10
    ensures |s| > 1 ==> s[0] != '0'
    decreases n
  {
    if n < 10 then [Digit(n)] else NatToString(n / 10) + [Digit(n % 10)]
  }

  /** The value of a string of decimal digits (the empty string reads as 0). */
  function ParseNat(s: string): nat
    requires AllDigits(s)
    decreases |s|
  {
    if |s| == 0 then 0 else 10 * ParseNat(s[..|s| - 1]) + DigitValue(s[|s| - 1])
  }

  /** Reading the decimal text of `n` gives `n` back. */
  lemma {:induction false} ParseNatToString(n: nat)
    ensures ParseNat(NatToString(n)) == n
    decreases n
  {
    var s := NatToString(n);
    if n >= 10 {
      ParseNatToString(n / 10);
      assert s[..|s| - 1] == NatToString(n / 10);
    }
  }

  /** Different numbers have different decimal text. */
  lemma NatToStringInjective(m: nat, n: nat)
    requires NatToString(m) == NatToString(n)
    ensures m == n
  {
    ParseNatToString(m);
    ParseNatToString(n);
  }

  /**
   * The written ending of `n`: its last character is the units digit and,
   * for `n >= 10`, the one before it is the tens digit.
   */
  lemma LastDigits(n: nat)
    ensures NatToString(n)[|NatToString(n)| - 1] == Digit(n % 10)
    ensures n >= 10 ==> NatToString(n)[|NatToString(n)| - 2] == Digit(n / 10 % 10)
  {
    if n >= 10 {
      var t := NatToString(n / 10);
      assert t[|t| - 1] == Digit(n / 10 % 10);
    }
  }
}

=== FILE: render.dfy ===
/**
 * main.py `format_hours` and `format_schedule_message`: durations with the
 * Ukrainian agreement of the noun "година" (hour), and the text of one
 * group's schedule for one day.
 */
module Render {

  import opened Numerals
  import opened Strings
  import opened Clock
  import opened Schedule

  /** The three forms of a counted noun: after 1, after 2-4, and otherwise. */
  datatype Form = Singular | Paucal | Plural

  /** The forms of "година" (hour). */
  function HourNoun(f: Form): string {
    match f
    case Singular => "година"
    case Paucal => "години"
    case Plural => "годин"
  }

  /** The agreement rule for a whole number `n` of hours. */
  function HourForm(n: nat): Form {
    if n % 10 == 1 && n % 100 != 11 then Singular
    else if n % 10 in {2, 3, 4} && n % 100 !in {12, 13, 14} then Paucal
    else Plural
  }

  predicate EndsWith(t: string, u: string) {
    |u| <= |t| && t[|t| - |u|..] == u
  }

  /**
   * The same rule as grammar books state it, on the written numeral: a
   * numeral ending in 1 (but not 11) takes the singular; one ending in 2, 3
   * or 4 (but not 12, 13 or 14) takes "години"; every other one "годин".
   */
  function FormForNumeral(t: string): Form {
    if EndsWith(t, "1") && !EndsWith(t, "11") then Singular
    else if (EndsWith(t, "2") || EndsWith(t, "3") || EndsWith(t, "4"))
         && !(EndsWith(t, "12") || EndsWith(t, "13") || EndsWith(t, "14")) then Paucal
    else Plural
  }

  lemma EndsWithOne(t: string, d: char)
    requires |t| >= 1
    ensures EndsWith(t, [d]) <==> t[|t| - 1] == d
  {
    if t[|t| - 1] == d {
      assert t[|t| - 1..] == [d];
    }
  }

  lemma EndsWithTwo(t: string, d1: char, d0: char)
    requires |t| >= 1
    ensures EndsWith(t, [d1, d0]) <==> |t| >= 2 && t[|t| - 2] == d1 && t[|t| - 1] == d0
  {
    if |t| >= 2 && t[|t| - 2] == d1 && t[|t| - 1] == d0 {
      assert t[|t| - 2..] == [d1, d0];
    }
  }

  /** The written units digit of `n` is `d` exactly when `n % 10 == d`. */
  lemma UnitsEnding(n: nat, d: nat)
    requires d < 10
    ensures EndsWith(NatToString(n), [Digit(d)]) <==> n % 10 == d
  {
    var t := NatToString(n);
    LastDigits(n);
    EndsWithOne(t, Digit(d));
    if t[|t| - 1] == Digit(d) {
      assert DigitValue(Digit(d)) == d && DigitValue(Digit(n % 10)) == n % 10;
    }
  }

  /** The written numeral of `n` ends in `1d` exactly when `n % 100 == 10 + d`. */
  lemma TeensEnding(n: nat, d: nat)
    requires d < 10
    ensures EndsWith(NatToString(n), [Digit(1), Digit(d)]) <==> n % 100 == 10 + d
  {
    var t := NatToString(n);
    EndsWithTwo(t, Digit(1), Digit(d));
    if n >= 10 {
      LastDigits(n);
      var tens, units := n / 10 % 10, n % 10;
      assert t[|t| - 2] == Digit(1) <==> tens == 1 by {
        assert DigitValue(Digit(tens)) == tens && DigitValue(Digit(1)) == 1;
      }
      assert t[|t| - 1] == Digit(d) <==> units == d by {
        assert DigitValue(Digit(units)) == units && DigitValue(Digit(d)) == d;
      }
      TensAndUnits(n);
    }
  }

  /** The last two decimal digits of `n`, as a number. */
  lemma TensAndUnits(n: nat)
    ensures n % 100 == 10 * (n / 10 % 10) + n % 10
  {
  }

  /** The arithmetic rule picks the same form as the rule on the written numeral. */
  lemma HourFormByNumeralEnding(n: nat)
    ensures HourForm(n) == FormForNumeral(NatToString(n))
  {
    var t := NatToString(n);
    assert "1" == [Digit(1)] && "2" == [Digit(2)] && "3" == [Digit(3)] && "4" == [Digit(4)];
    assert "11" == [Digit(1), Digit(1)] && "12" == [Digit(1), Digit(2)];
    assert "13" == [Digit(1), Digit(3)] && "14" == [Digit(1), Digit(4)];
    UnitsEnding(n, 1);
    UnitsEnding(n, 2);
    UnitsEnding(n, 3);
    UnitsEnding(n, 4);
    TeensEnding(n, 1);
    TeensEnding(n, 2);
    TeensEnding(n, 3);
    TeensEnding(n, 4);
    var one := EndsWith(t, "1") && !EndsWith(t, "11");
    assert one <==> n % 10 == 1 && n % 100 != 11;
    var few := (EndsWith(t, "2") || EndsWith(t, "3") || EndsWith(t, "4"))
      && !(EndsWith(t, "12") || EndsWith(t, "13") || EndsWith(t, "14"));
    assert few <==> n % 10 in {2, 3, 4} && n % 100 !in {12, 13, 14};
  }

  /** Python's text of the duration `halfHours / 2` once whole values are made `int`: "3" or "2.5". */
  function HoursNumber(halfHours: nat): string {
    if halfHours % 2 == 0 then NatToString(halfHours / 2)
    else NatToString(halfHours / 2) + ".5"
  }

  /** The form of the noun after the number: fractional values always take "години". */
  function HoursForm(halfHours: nat): Form {
    if halfHours % 2 == 0 then HourForm(halfHours / 2) else Paucal
  }

  /** `format_hours`. */
  function FormatHours(halfHours: nat): string {
    HoursNumber(halfHours) + " " + HourNoun(HoursForm(halfHours))
  }

  /** Reading a duration number back into half hours. */
  function ReadHours(t: string): nat
    requires EndsWith(t, ".5") ==> AllDigits(t[..|t| - 2])
    requires !EndsWith(t, ".5") ==> AllDigits(t)
  {
    if EndsWith(t, ".5") then 2 * ParseNat(t[..|t| - 2]) + 1 else 2 * ParseNat(t)
  }

  /** The number in a duration phrase names the exact duration. */
  lemma HoursNumberRoundTrip(halfHours: nat)
    ensures var t := HoursNumber(halfHours);
      && (EndsWith(t, ".5") ==> AllDigits(t[..|t| - 2]))
      && (!EndsWith(t, ".5") ==> AllDigits(t))
      && ReadHours(t) == halfHours
  {
    var t := HoursNumber(halfHours);
    var w := NatToString(halfHours / 2);
    ParseNatToString(halfHours / 2);
    if halfHours % 2 == 1 {
      assert t[|t| - 2..] == ".5";
      assert t[..|t| - 2] == w;
    } else {
      assert !EndsWith(t, ".5") by {
        if |t| >= 2 {
          assert t[|t| - 2..][0] == t[|t| - 2];
          assert IsDigit(t[|t| - 2]);
        }
      }
    }
  }

  /** A fractional duration always takes "години", whatever its last digit. */
  lemma FractionalTakesPaucal(halfHours: nat)
    requires halfHours % 2 == 1
    ensures FormatHours(halfHours) == NatToString(halfHours / 2) + ".5 години"
  {
  }

  /**
   * The form taken after whole numbers of hours (1 and 21; 2, 3, 4 and 22;
   * 0, 5, 11, 12, 14 and 20) and after 0.5 and 2.5 hours, which are 1 and
   * 5 half hours.
   */
  lemma HourFormExamples()
    ensures HourForm(1) == Singular && HourForm(21) == Singular
    ensures HourForm(2) == Paucal && HourForm(3) == Paucal && HourForm(4) == Paucal && HourForm(22) == Paucal
    ensures HoursForm(1) == Paucal && HoursForm(5) == Paucal
    ensures HourForm(0) == Plural && HourForm(5) == Plural && HourForm(11) == Plural
    ensures HourForm(12) == Plural && HourForm(14) == Plural && HourForm(20) == Plural
  {
  }

  /**
   * A duration phrase is the number that reads back as the duration, a
   * space, and the form of "година" that the grammar rule picks for that
   * numeral ("години" after a fractional number).
   */
  lemma FormatHoursByGrammar(halfHours: nat)
    ensures var n := HoursNumber(halfHours);
      && FormatHours(halfHours) == n + " " + HourNoun(if halfHours % 2 == 0 then FormForNumeral(n) else Paucal)
      && (EndsWith(n, ".5") ==> AllDigits(n[..|n| - 2]))
      && (!EndsWith(n, ".5") ==> AllDigits(n))
      && ReadHours(n) == halfHours
  {
    HoursNumberRoundTrip(halfHours);
    HourFormByNumeralEnding(halfHours / 2);
  }

  /** "1 година": one hour takes the singular. */
  lemma OneHourPhrase()
    ensures FormatHours(2) == "1 година"
  {
    assert HoursNumber(2) == "1";
  }

  /** "22 години": a numeral ending in 2 (but not 12) takes "години". */
  lemma TwentyTwoHoursPhrase()
    ensures FormatHours(44) == "22 години"
  {
    assert HoursNumber(44) == "22" by { assert NatToString(22) == "22"; }
    assert HoursForm(44) == Paucal;
  }

  /** "0.5 години": half an hour is written as a decimal and takes "години". */
  lemma HalfHourPhrase()
    ensures FormatHours(1) == "0.5 години"
  {
    assert HoursNumber(1) == "0.5";
  }

  /** "11 годин": 11 ends in 1 but takes the plural. */
  lemma ElevenHoursPhrase()
    ensures FormatHours(22) == "11 годин"
  {
    assert HoursNumber(22) == "11" by { assert NatToString(11) == "11"; }
    assert HoursForm(22) == Plural;
  }

  /** The day names of main.py's `DAYS_UA`, Monday first. */
  const DayNames: seq<string> :=
    ["Понеділок", "Вівторок", "Середа", "Четвер", "П'ятниця", "Субота", "Неділя"]

  /** `datetime.weekday()`: 0 is Monday, 6 is Sunday. */
  type Weekday = w: nat | w < 7

  /** What the header says about the day and the group. */
  datatype DayContext = DayContext(dateText: string, weekday: Weekday, isToday: bool, group: string)

  /** The prefix the feed puts before a group number. */
  const GroupPrefix: string := "GPV"

  function Header(ctx: DayContext): string {
    "\U{1F5D3} Графік відключень на " + (if ctx.isToday then "сьогодні" else "завтра")
    + ", " + ctx.dateText + " (" + DayNames[ctx.weekday] + "), група "
    + RemoveAll(ctx.group, GroupPrefix) + ":"
  }

  const OnMark: string := "\U{1F50B}"
  const OffMark: string := "\U{1FAAB}"

  function PeriodLine(p: Period): string {
    (if p.isOn then OnMark else OffMark) + FormatSlotTime(p.start) + " - " + FormatSlotTime(p.end)
    + " (" + FormatHours(p.halfHours) + ")"
  }

  /** The header followed by one line per period, in order. */
  function HeadedLines(header: string, ps: seq<Period>): (lines: seq<string>)
    ensures |lines| == |ps| + 1 && lines[0] == header
    decreases |ps|
  {
    if |ps| == 0 then [header] else HeadedLines(header, ps[..|ps| - 1]) + [PeriodLine(ps[|ps| - 1])]
  }

  /** The blank line and the two totals lines that close a day's report. */
  function TotalsLines(halvesOn: nat, halvesOff: nat): seq<string> {
    ["", OnTotal(halvesOn), OffTotal(halvesOff)]
  }

  /** "There is power" and the total on duration. */
  function OnTotal(halvesOn: nat): string {
    "Світло є " + FormatHours(halvesOn)
  }

  /** "There is no power" and the total off duration. */
  function OffTotal(halvesOff: nat): string {
    "Світла нема " + FormatHours(halvesOff)
  }

  /** The lines of one day's report: header, one line per period, a blank line and the two totals. */
  function DayLines(ps: seq<Period>, ctx: DayContext): seq<string> {
    HeadedLines(Header(ctx), ps) + TotalsLines(HalvesWhere(ps, true), HalvesWhere(ps, false))
  }

  function DayText(ps: seq<Period>, ctx: DayContext): string {
    Join(DayLines(ps, ctx), "\n")
  }

  /** A day's text ends with a blank line and the on and off totals, each on its own line. */
  lemma DayTextEndsWithTotals(ps: seq<Period>, ctx: DayContext)
    ensures DayText(ps, ctx)
      == Join(HeadedLines(Header(ctx), ps), "\n") + "\n" + "\n"
      + OnTotal(HalvesWhere(ps, true)) + "\n" + OffTotal(HalvesWhere(ps, false))
  {
    JoinBlankAndTwo(HeadedLines(Header(ctx), ps), OnTotal(HalvesWhere(ps, true)), OffTotal(HalvesWhere(ps, false)), "\n");
  }

  /** Taking one more period of the schedule adds its line. */
  lemma NextPeriodLine(header: string, schedule: seq<Period>, i: nat)
    requires i < |schedule|
    ensures HeadedLines(header, schedule[..i + 1]) == HeadedLines(header, schedule[..i]) + [PeriodLine(schedule[i])]
  {
    assert schedule[..i + 1][..i] == schedule[..i];
  }

  /** Taking one more period of the schedule adds its duration to the total of its state. */
  lemma NextPeriodTotals(schedule: seq<Period>, i: nat)
    requires i < |schedule|
    ensures HalvesWhere(schedule[..i + 1], true)
      == HalvesWhere(schedule[..i], true) + (if schedule[i].isOn then schedule[i].halfHours else 0)
    ensures HalvesWhere(schedule[..i + 1], false)
      == HalvesWhere(schedule[..i], false) + (if schedule[i].isOn then 0 else schedule[i].halfHours)
  {
    assert schedule[..i + 1][..i] == schedule[..i];
  }

  /** The loop of `format_schedule_message`: one pass over the periods, collecting their lines and the on and off totals. */
  method CollectLines(header: string, schedule: seq<Period>) returns (lines: seq<string>, totalOn: nat, totalOff: nat)
    ensures lines == HeadedLines(header, schedule)
    ensures totalOn == HalvesWhere(schedule, true) && totalOff == HalvesWhere(schedule, false)
  {
    lines := [header];
    totalOn, totalOff := 0, 0;
    for i := 0 to |schedule|
      invariant lines == HeadedLines(header, schedule[..i])
      invariant totalOn == HalvesWhere(schedule[..i], true)
      invariant totalOff == HalvesWhere(schedule[..i], false)
    {
      var period := schedule[i];
      NextPeriodLine(header, schedule, i);
      NextPeriodTotals(schedule, i);
      lines := lines + [PeriodLine(period)];
      if period.isOn {
        totalOn := totalOn + period.halfHours;
      } else {
        totalOff := totalOff + period.halfHours;
      }
    }
    assert schedule[..|schedule|] == schedule;
  }

  /** `format_schedule_message`: the header, the period lines, a blank line and the totals, joined by newlines. */
  method FormatScheduleMessage(schedule: seq<Period>, ctx: DayContext) returns (text: string)
    ensures text == DayText(schedule, ctx)
  {
    var lines, totalOn, totalOff := CollectLines(Header(ctx), schedule);
    lines := lines + TotalsLines(totalOn, totalOff);
    text := Join(lines, "\n");
  }

  lemma DigitsAreNot(s: string, c: char)
    requires AllDigits(s) && !IsDigit(c)
    ensures c !in s
  {
  }

  lemma SlotTimeHasNoEquals(slot: nat)
    ensures '=' !in FormatSlotTime(slot)
  {
    var hours, minutes := slot * 30 / 60, slot * 30 % 60;
    DigitsAreNot(Pad2(hours), '=');
    DigitsAreNot(Pad2(minutes), '=');
  }

  lemma HoursHaveNoEquals(halfHours: nat)
    ensures '=' !in FormatHours(halfHours)
  {
    DigitsAreNot(NatToString(halfHours / 2), '=');
  }

  lemma HeaderHasNoEquals(ctx: DayContext)
    requires '=' !in ctx.dateText && '=' !in ctx.group
    ensures '=' !in Header(ctx)
  {
    assert '=' !in DayNames[ctx.weekday];
    assert '=' !in RemoveAll(ctx.group, GroupPrefix);
  }

  lemma PeriodLineHasNoEquals(p: Period)
    ensures '=' !in PeriodLine(p)
  {
    SlotTimeHasNoEquals(p.start);
    SlotTimeHasNoEquals(p.end);
    HoursHaveNoEquals(p.halfHours);
  }

  lemma {:induction false} HeadedLinesHaveNoEquals(header: string, ps: seq<Period>)
    requires '=' !in header
    ensures forall k :: 0 <= k < |HeadedLines(header, ps)| ==> '=' !in HeadedLines(header, ps)[k]
    decreases |ps|
  {
    if |ps| > 0 {
      HeadedLinesHaveNoEquals(header, ps[..|ps| - 1]);
      PeriodLineHasNoEquals(ps[|ps| - 1]);
    }
  }

  lemma LabelledHoursHaveNoEquals(caption: string, halfHours: nat)
    requires '=' !in caption
    ensures '=' !in caption + FormatHours(halfHours)
  {
    HoursHaveNoEquals(halfHours);
  }

  lemma TotalsHaveNoEquals(halvesOn: nat, halvesOff: nat)
    ensures forall k :: 0 <= k < 3 ==> '=' !in TotalsLines(halvesOn, halvesOff)[k]
  {
    LabelledHoursHaveNoEquals("Світло є ", halvesOn);
    LabelledHoursHaveNoEquals("Світла нема ", halvesOff);
  }

  /** A day's report contains no '=' unless its date text or group name does. */
  lemma DayTextHasNoEquals(ps: seq<Period>, ctx: DayContext)
    requires '=' !in ctx.dateText && '=' !in ctx.group
    ensures '=' !in DayText(ps, ctx)
  {
    var headed := HeadedLines(Header(ctx), ps);
    var totals := TotalsLines(HalvesWhere(ps, true), HalvesWhere(ps, false));
    var lines := headed + totals;
    HeaderHasNoEquals(ctx);
    HeadedLinesHaveNoEquals(Header(ctx), ps);
    TotalsHaveNoEquals(HalvesWhere(ps, true), HalvesWhere(ps, false));
    forall k | 0 <= k < |lines| ensures '=' !in lines[k] {
      if k < |headed| {
        assert lines[k] == headed[k];
      } else {
        assert lines[k] == totals[k - |headed|];
      }
    }
    JoinChars(lines, "\n", '=');
  }
}

=== FILE: report.dfy ===
/**
 * main.py `format_full_message` and the delivery part of
 * `send_telegram_message`: the reports of the configured groups for the two
 * earliest days of the feed, joined into one message, and that message cut
 * into the parts that are posted one after another.
 */
module Report {

  import opened Wrappers
  import opened Strings
  import opened Schedule
  import opened Render

  /** The groups reported, in this order. */
  const Groups: seq<string> := ["GPV12.1", "GPV18.1"]

  /** The headers name the groups by number: "GPV12.1" is shown as "12.1", "GPV18.1" as "18.1". */
  lemma GroupNumbersShown()
    ensures RemoveAll(Groups[0], GroupPrefix) == "12.1"
    ensures RemoveAll(Groups[1], GroupPrefix) == "18.1"
  {
    RemoveAllPrefix(GroupPrefix, "12.1");
    RemoveAllPrefix(GroupPrefix, "18.1");
    assert Groups[0] == GroupPrefix + "12.1" && Groups[1] == GroupPrefix + "18.1";
    AbsentWithoutFirstChar("12.1", GroupPrefix);
    AbsentWithoutFirstChar("18.1", GroupPrefix);
    RemoveAllAbsent("12.1", GroupPrefix);
    RemoveAllAbsent("18.1", GroupPrefix);
  }

  /** Between the days of one group. */
  const DaySeparator: string := "\n---\n"

  /** Between groups; the chunker cuts a long message here. */
  const GroupSeparator: string := "\n===\n"

  /** A message longer than this is sent in parts. */
  const MaxLength: nat := 4000

  /** One day of one group: hour label to status code. */
  type DayData = map<string, string>

  /**
   * The feed's `fact.data`: for each day, keyed by its UNIX timestamp
   * (the feed's decimal key read with `int`), the day data of each group.
   */
  type FactData = map<int, map<string, DayData>>

  /** What `datetime.fromtimestamp` gives the header: the `%d.%m` text and the weekday. */
  datatype DateInfo = DateInfo(dateText: string, weekday: Weekday)

  lemma {:induction false} MinExists(keys: set<int>)
    requires keys != {}
    ensures exists m :: m in keys && forall k :: k in keys ==> m <= k
    decreases |keys|
  {
    var x := PickOne(keys);
    if keys != {x} {
      var rest := keys - {x};
      MinExists(rest);
      var m :| m in rest && forall k :: k in rest ==> m <= k;
      var least := if x < m then x else m;
      forall k | k in keys ensures least <= k {
        if k != x { assert k in rest; }
      }
      assert least in keys;
    } else {
      assert forall k :: k in keys ==> x <= k;
    }
  }

  lemma PickOne(keys: set<int>) returns (x: int)
    requires keys != {}
    ensures x in keys
  {
    // A non-empty set has a member: the solver needs this case split to see it.
    if forall e :: e !in keys {
      assert false;
    }
    var e :| e in keys;
    x := e;
  }

  /** The smallest key. */
  function MinKey(keys: set<int>): (m: int)
    requires keys != {}
    ensures m in keys && forall k :: k in keys ==> m <= k
  {
    MinExists(keys);
    var m :| m in keys && forall k :: k in keys ==> m <= k;
    m
  }

  /** `sorted(fact_data.keys(), key=int)[:2]`: today and tomorrow. */
  function Earliest(keys: set<int>): (days: seq<int>)
    ensures |days| <= 2 && forall k :: 0 <= k < |days| ==> days[k] in keys
  {
    if keys == {} then []
    else
      var first := MinKey(keys);
      if keys == {first} then [first] else [first, MinKey(keys - {first})]
  }

  /**
   * `days` are the (at most two) smallest keys in ascending order: as many
   * as there are keys up to two, increasing, all keys, and smaller than
   * every key left out.
   */
  ghost predicate IsEarliest(days: seq<int>, keys: set<int>) {
    && |days| == (if |keys| < 2 then |keys| else 2)
    && (forall i, j :: 0 <= i < j < |days| ==> days[i] < days[j])
    && (forall i :: 0 <= i < |days| ==> days[i] in keys)
    && (forall k, i :: k in keys && k !in days && 0 <= i < |days| ==> days[i] < k)
  }

  /** `Earliest` picks the two smallest keys, ascending, and nothing else does. */
  lemma EarliestIff(days: seq<int>, keys: set<int>)
    ensures IsEarliest(days, keys) <==> days == Earliest(keys)
  {
    var e := Earliest(keys);
    if keys != {} {
      var first := MinKey(keys);
      if keys != {first} {
        var rest := keys - {first};
        assert rest != {};
        assert |keys| == |rest| + 1;
        assert |keys| >= 2;
      } else {
        assert |keys| == 1;
      }
    }
    forall k, i | k in keys && k !in e && 0 <= i < |e|
      ensures e[i] < k
    {
      assert k != MinKey(keys);
      if |e| == 2 {
        assert k in keys - {e[0]};
      }
    }
    assert IsEarliest(e, keys);
    if IsEarliest(days, keys) {
      EarliestUnique(days, e, keys);
    }
  }

  lemma EarliestUnique(a: seq<int>, b: seq<int>, keys: set<int>)
    requires IsEarliest(a, keys) && IsEarliest(b, keys)
    ensures a == b
  {
    if |a| >= 1 {
      EarliestFirstIsLeast(a, keys);
      EarliestFirstIsLeast(b, keys);
      assert a[0] <= b[0] && b[0] <= a[0];
    }
    if |a| == 2 {
      EarliestSecondIsNextLeast(a, keys);
      EarliestSecondIsNextLeast(b, keys);
      assert b[1] in keys - {a[0]} && a[1] in keys - {b[0]};
    }
  }

  lemma EarliestFirstIsLeast(a: seq<int>, keys: set<int>)
    requires IsEarliest(a, keys) && |a| >= 1
    ensures forall k :: k in keys ==> a[0] <= k
  {
    forall k | k in keys ensures a[0] <= k {
      if k in a {
        var i :| 0 <= i < |a| && a[i] == k;
        assert i == 0 || a[0] < a[i];
      }
    }
  }

  lemma EarliestSecondIsNextLeast(a: seq<int>, keys: set<int>)
    requires IsEarliest(a, keys) && |a| == 2
    ensures forall k :: k in keys - {a[0]} ==> a[1] <= k
  {
    forall k | k in keys - {a[0]} ensures a[1] <= k {
      if k in a {
        assert k == a[1];
      }
    }
  }

  /** `if not day_data: continue`: the group has a non-empty entry for that day. */
  predicate HasDay(groups: map<string, DayData>, group: string) {
    group in groups && groups[group] != map[]
  }

  ghost predicate DaysKnown(fact: FactData, days: seq<int>) {
    forall k :: 0 <= k < |days| ==> days[k] in fact
  }

  /** The report of `group` for the day with timestamp `ts`, the `idx`-th day (0 is today). */
  function DayReport(fact: FactData, ts: int, idx: nat, group: string, dateOf: int -> DateInfo): string
    requires ts in fact && group in fact[ts]
  {
    var date := dateOf(ts);
    DayText(Merge(Slots(fact[ts][group])), DayContext(date.dateText, date.weekday, idx == 0, group))
  }

  /**
   * A day report closes with the on and off totals, and together they are
   * the whole day: 48 half hours.
   */
  lemma DayReportTotals(fact: FactData, ts: int, idx: nat, group: string, dateOf: int -> DateInfo)
    requires ts in fact && group in fact[ts]
    ensures var ps := Merge(Slots(fact[ts][group]));
      && HalvesWhere(ps, true) + HalvesWhere(ps, false) == 2 * HoursPerDay
      && EndsWith(DayReport(fact, ts, idx, group, dateOf),
           "\n" + OnTotal(HalvesWhere(ps, true)) + "\n" + OffTotal(HalvesWhere(ps, false)))
  {
    var slots := Slots(fact[ts][group]);
    var ps := Merge(slots);
    MergeIffMaximalCover(ps, slots);
    CoverTotals(ps, slots);
    var date := dateOf(ts);
    var ctx := DayContext(date.dateText, date.weekday, idx == 0, group);
    DayTextEndsWithTotals(ps, ctx);
    LastTwoLines(Join(HeadedLines(Header(ctx), ps), "\n"), OnTotal(HalvesWhere(ps, true)), OffTotal(HalvesWhere(ps, false)), "\n");
  }

  /** The day reports of `group` for the first `n` of `days`, skipping days without data. */
  function GroupDays(fact: FactData, days: seq<int>, n: nat, group: string, dateOf: int -> DateInfo): seq<string>
    requires n <= |days| && DaysKnown(fact, days)
  {
    if n == 0 then []
    else
      GroupDays(fact, days, n - 1, group, dateOf)
      + (if HasDay(fact[days[n - 1]], group) then [DayReport(fact, days[n - 1], n - 1, group, dateOf)] else [])
  }

  /** The sections of the first `m` groups: each group with any day, its days joined. */
  function Sections(fact: FactData, days: seq<int>, m: nat, dateOf: int -> DateInfo): seq<string>
    requires m <= |Groups| && DaysKnown(fact, days)
  {
    if m == 0 then []
    else
      var texts := GroupDays(fact, days, |days|, Groups[m - 1], dateOf);
      Sections(fact, days, m - 1, dateOf) + (if texts == [] then [] else [Join(texts, DaySeparator)])
  }

  /** What `format_full_message` returns for a feed: nothing when `fact.data` is empty. */
  function FullMessage(fact: FactData, dateOf: int -> DateInfo): Option<string> {
    if fact == map[] then None
    else
      var days := Earliest(fact.Keys);
      Some(Join(Sections(fact, days, |Groups|, dateOf), GroupSeparator))
  }

  /** `format_full_message`: for each group, for today and tomorrow, build and render the schedule. */
  method FormatFullMessage(fact: FactData, dateOf: int -> DateInfo) returns (message: Option<string>)
    ensures message.None? <==> fact == map[]
    ensures message == FullMessage(fact, dateOf)
  {
    if fact == map[] {
      return None;
    }
    var days := Earliest(fact.Keys);
    var all: seq<string> := [];
    for g := 0 to |Groups|
      invariant all == Sections(fact, days, g, dateOf)
    {
      var group := Groups[g];
      var groupMessages: seq<string> := [];
      for idx := 0 to |days|
        invariant groupMessages == GroupDays(fact, days, idx, group, dateOf)
      {
        var ts := days[idx];
        var dayData := fact[ts];
        if HasDay(dayData, group) {
          var date := dateOf(ts);
          var schedule := BuildSchedule(dayData[group]);
          var text := FormatScheduleMessage(schedule, DayContext(date.dateText, date.weekday, idx == 0, group));
          groupMessages := groupMessages + [text];
        }
      }
      if groupMessages != [] {
        all := all + [Join(groupMessages, DaySeparator)];
      }
    }
    message := Some(Join(all, GroupSeparator));
  }

  /** The parts `send_telegram_message` posts: the whole message, or its group sections when it is too long. */
  function Chunks(message: string): seq<string> {
    if |message| <= MaxLength then [message] else Split(message, GroupSeparator)
  }

  /** The parts, joined again with the group separator, are the message. */
  lemma ChunksRestoreMessage(message: string)
    ensures Join(Chunks(message), GroupSeparator) == message
    ensures |message| <= MaxLength ==> Chunks(message) == [message]
    ensures |message| > MaxLength ==> forall k :: 0 <= k < |Chunks(message)| ==> !Contains(Chunks(message)[k], GroupSeparator)
  {
    if |message| > MaxLength {
      JoinSplit(message, GroupSeparator);
      SplitPartsAvoidSeparator(message, GroupSeparator);
    }
  }

  lemma DayReportHasNoEquals(fact: FactData, ts: int, idx: nat, group: string, dateOf: int -> DateInfo)
    requires ts in fact && group in fact[ts] && '=' !in group && '=' !in dateOf(ts).dateText
    ensures '=' !in DayReport(fact, ts, idx, group, dateOf)
  {
    var date := dateOf(ts);
    DayTextHasNoEquals(Merge(Slots(fact[ts][group])), DayContext(date.dateText, date.weekday, idx == 0, group));
  }

  /** `text` is the report of one of the first `n` days, a day with data for the group. */
  ghost predicate ReportOfDay(text: string, fact: FactData, days: seq<int>, n: nat, group: string, dateOf: int -> DateInfo)
    requires n <= |days| && DaysKnown(fact, days)
  {
    exists k :: 0 <= k < n && HasDay(fact[days[k]], group) && text == DayReport(fact, days[k], k, group, dateOf)
  }

  /** Each text of a group is the report of one of the days considered, one that has data for the group. */
  lemma {:induction false} GroupDaysAreReports(fact: FactData, days: seq<int>, n: nat, group: string, dateOf: int -> DateInfo)
    requires n <= |days| && DaysKnown(fact, days)
    ensures forall j :: 0 <= j < |GroupDays(fact, days, n, group, dateOf)| ==>
      ReportOfDay(GroupDays(fact, days, n, group, dateOf)[j], fact, days, n, group, dateOf)
    decreases n
  {
    if n > 0 {
      GroupDaysAreReports(fact, days, n - 1, group, dateOf);
      var before := GroupDays(fact, days, n - 1, group, dateOf);
      var texts := GroupDays(fact, days, n, group, dateOf);
      forall j | 0 <= j < |texts| ensures ReportOfDay(texts[j], fact, days, n, group, dateOf) {
        if j < |before| {
          assert texts[j] == before[j];
          assert ReportOfDay(before[j], fact, days, n - 1, group, dateOf);
        } else {
          assert texts[j] == DayReport(fact, days[n - 1], n - 1, group, dateOf);
        }
      }
    }
  }

  lemma GroupDaysHaveNoEquals(fact: FactData, days: seq<int>, group: string, dateOf: int -> DateInfo)
    requires DaysKnown(fact, days) && '=' !in group
    requires forall ts :: ts in fact ==> '=' !in dateOf(ts).dateText
    ensures forall j :: 0 <= j < |GroupDays(fact, days, |days|, group, dateOf)| ==> '=' !in GroupDays(fact, days, |days|, group, dateOf)[j]
  {
    var texts := GroupDays(fact, days, |days|, group, dateOf);
    GroupDaysAreReports(fact, days, |days|, group, dateOf);
    forall j | 0 <= j < |texts| ensures '=' !in texts[j] {
      assert ReportOfDay(texts[j], fact, days, |days|, group, dateOf);
      var k :| 0 <= k < |days| && HasDay(fact[days[k]], group) && texts[j] == DayReport(fact, days[k], k, group, dateOf);
      DayReportHasNoEquals(fact, days[k], k, group, dateOf);
    }
  }

  lemma {:induction false} SectionsHaveNoEquals(fact: FactData, days: seq<int>, m: nat, dateOf: int -> DateInfo)
    requires m <= |Groups| && DaysKnown(fact, days)
    requires forall ts :: ts in fact ==> '=' !in dateOf(ts).dateText
    ensures forall j :: 0 <= j < |Sections(fact, days, m, dateOf)| ==> '=' !in Sections(fact, days, m, dateOf)[j]
    decreases m
  {
    if m > 0 {
      SectionsHaveNoEquals(fact, days, m - 1, dateOf);
      var group := Groups[m - 1];
      assert '=' !in group;
      var texts := GroupDays(fact, days, |days|, group, dateOf);
      GroupDaysHaveNoEquals(fact, days, group, dateOf);
      JoinChars(texts, DaySeparator, '=');
    }
  }

  /**
   * A message too long to send whole is posted as exactly its group
   * sections, in order: the group separator occurs nowhere else, since no
   * report line contains '=' (dates are written `%d.%m`).
   */
  lemma LongMessageSplitsAtGroups(fact: FactData, dateOf: int -> DateInfo)
    requires forall ts :: ts in fact ==> '=' !in dateOf(ts).dateText
    requires FullMessage(fact, dateOf).Some? && |FullMessage(fact, dateOf).value| > MaxLength
    ensures Chunks(FullMessage(fact, dateOf).value) == Sections(fact, Earliest(fact.Keys), |Groups|, dateOf)
  {
    var days := Earliest(fact.Keys);
    var sections := Sections(fact, days, |Groups|, dateOf);
    SectionsHaveNoEquals(fact, days, |Groups|, dateOf);
    assert |sections| >= 1;
    SplitJoin(sections, GroupSeparator);
  }

  /** The parts posted, in order, until the first one that fails. */
  function Attempts(parts: seq<string>, post: string -> bool): seq<string>
    decreases |parts|
  {
    if |parts| == 0 then []
    else [parts[0]] + (if post(parts[0]) then Attempts(parts[1..], post) else [])
  }

  /**
   * The parts posted are a prefix of the parts; every one but the last was
   * posted successfully, and when not all parts were tried the last one tried failed.
   */
  lemma {:induction false} AttemptsStopAtFirstFailure(parts: seq<string>, post: string -> bool)
    ensures var tried := Attempts(parts, post);
      && |tried| <= |parts| && tried == parts[..|tried|]
      && (forall k :: 0 <= k < |tried| - 1 ==> post(tried[k]))
      && (|tried| < |parts| ==> |tried| > 0 && !post(tried[|tried| - 1]))
    decreases |parts|
  {
    if |parts| > 0 && post(parts[0]) {
      var rest := parts[1..];
      AttemptsStopAtFirstFailure(rest, post);
      var tried, more := Attempts(parts, post), Attempts(rest, post);
      assert tried == [parts[0]] + more;
      assert parts[..|tried|] == [parts[0]] + rest[..|more|];
      forall k | 0 <= k < |tried| - 1 ensures post(tried[k]) {
        if k > 0 { assert tried[k] == more[k - 1]; }
      }
    }
  }

  predicate AllPosted(parts: seq<string>, post: string -> bool) {
    forall k :: 0 <= k < |parts| ==> post(parts[k])
  }

  /**
   * `send_telegram_message`: nothing is posted without credentials; otherwise
   * the parts of the message are posted in order and the first failure ends
   * the send. The post itself is the parameter `post`.
   */
  method SendMessage(message: string, configured: bool, post: string -> bool)
    returns (ok: bool, ghost posted: seq<string>)
    ensures ok <==> configured && AllPosted(Chunks(message), post)
    ensures posted == if configured then Attempts(Chunks(message), post) else []
  {
    if !configured {
      return false, [];
    }
    var parts := Chunks(message);
    ok, posted := PostParts(parts, post);
  }

  /** The loop of `send_telegram_message` over the parts. */
  method PostParts(parts: seq<string>, post: string -> bool) returns (ok: bool, ghost posted: seq<string>)
    ensures ok <==> AllPosted(parts, post)
    ensures posted == Attempts(parts, post)
  {
    posted := [];
    for k := 0 to |parts|
      invariant posted == parts[..k]
      invariant AllPosted(parts[..k], post)
    {
      var part := parts[k];
      posted := posted + [part];
      if !post(part) {
        AttemptsAfterSuccesses(parts, post, k);
        assert parts[k..] == [part] + parts[k + 1..];
        return false, posted;
      }
    }
    AttemptsAfterSuccesses(parts, post, |parts|);
    assert parts[..|parts|] == parts;
    return true, posted;
  }

  /** After `k` successful posts, the attempts are those `k` parts followed by the attempts on the rest. */
  lemma {:induction false} AttemptsAfterSuccesses(parts: seq<string>, post: string -> bool, k: nat)
    requires k <= |parts| && AllPosted(parts[..k], post)
    ensures Attempts(parts, post) == parts[..k] + Attempts(parts[k..], post)
    decreases k
  {
    if k == 0 {
      assert parts[k..] == parts;
    } else {
      var rest := parts[1..];
      PostedHeadAndTail(parts, post, k);
      AttemptsAfterSuccesses(rest, post, k - 1);
      var later := Attempts(parts[k..], post);
      assert rest[k - 1..] == parts[k..];
      calc {
        Attempts(parts, post);
        [parts[0]] + Attempts(rest, post);
        [parts[0]] + (rest[..k - 1] + later);
        ([parts[0]] + rest[..k - 1]) + later;
        { assert parts[..k] == [parts[0]] + rest[..k - 1]; }
        parts[..k] + later;
      }
    }
  }

  /** The first of `k` successful posts succeeded, and so did the `k - 1` after it. */
  lemma PostedHeadAndTail(parts: seq<string>, post: string -> bool, k: nat)
    requires 0 < k <= |parts| && AllPosted(parts[..k], post)
    ensures post(parts[0]) && AllPosted(parts[1..][..k - 1], post)
  {
    assert parts[..k][0] == parts[0];
    var tail := parts[1..][..k - 1];
    forall j | 0 <= j < |tail| ensures post(tail[j]) {
      assert tail[j] == parts[..k][j + 1];
    }
  }


}

=== FILE: schedule.dfy ===
/**
 * main.py `build_schedule`: the hourly status codes of one group for one
 * day become 48 half-hour slots (on or off), and the slots are merged into
 * maximal periods of equal state.
 */
module Schedule {

  import opened Numerals
  import opened Clock

  /** The status assumed for an hour the feed leaves out. */
  const DefaultStatus: string := "yes"

  /** The hour labels of a day run from "1" (00:00-01:00) to "24" (23:00-24:00). */
  const HoursPerDay: nat := 24

  /** Power in the first and in the second half of one hour. */
  datatype Halves = Halves(first: bool, second: bool)

  /**
   * The meaning of one status code. Only "no", "first" and "second" switch
   * power off; every other code, known or not, leaves it on (fail-open).
   */
  function Interpret(status: string): (h: Halves)
    ensures !h.first <==> status == "no" || status == "first"
    ensures !h.second <==> status == "no" || status == "second"
  {
    if status == "yes" then Halves(true, true)
    else if status == "no" then Halves(false, false)
    else if status == "first" then Halves(false, true)
    else if status == "second" then Halves(true, false)
    else if status in ["maybe", "mfirst", "msecond"] then Halves(true, true)
    else Halves(true, true)
  }

  /** The feed's key for hour `hour`: `str(hour)`. */
  function HourKey(hour: nat): string {
    NatToString(hour)
  }

  /** `day_data.get(str(hour), "yes")`. */
  function StatusAt(day: map<string, string>, hour: nat): string {
    if HourKey(hour) in day then day[HourKey(hour)] else DefaultStatus
  }

  /** Slot `i` covers minutes `[30 i, 30 i + 30)`: a half of hour label `i / 2 + 1`. */
  function SlotValue(day: map<string, string>, i: nat): bool {
    var h := Interpret(StatusAt(day, i / 2 + 1));
    if i % 2 == 0 then h.first else h.second
  }

  /** The 48 half-hour slots of a day. */
  function Slots(day: map<string, string>): (slots: seq<bool>)
    ensures |slots| == SlotsPerDay
  {
    seq(SlotsPerDay, i requires 0 <= i < SlotsPerDay => SlotValue(day, i))
  }

  /** The first loop of `build_schedule`: two slots appended per hour label. */
  method EncodeSlots(day: map<string, string>) returns (slots: seq<bool>)
    ensures |slots| == SlotsPerDay
    ensures forall hour :: 1 <= hour <= HoursPerDay ==>
      && slots[2 * (hour - 1)] == Interpret(StatusAt(day, hour)).first
      && slots[2 * (hour - 1) + 1] == Interpret(StatusAt(day, hour)).second
    ensures slots == Slots(day)
  {
    slots := [];
    for hour := 1 to HoursPerDay + 1
      invariant |slots| == 2 * (hour - 1)
      invariant forall i :: 0 <= i < |slots| ==> slots[i] == SlotValue(day, i)
    {
      var status := StatusAt(day, hour);
      var halves := Interpret(status);
      slots := slots + [halves.first, halves.second];
    }
  }

  /** Only the keys "1" to "24" are ever read: any other entry leaves the slots as they are. */
  lemma OnlyHourKeysRead(day: map<string, string>, other: map<string, string>)
    requires forall hour :: 1 <= hour <= HoursPerDay ==> StatusAt(day, hour) == StatusAt(other, hour)
    ensures Slots(day) == Slots(other)
  {
    forall i | 0 <= i < SlotsPerDay
      ensures Slots(day)[i] == Slots(other)[i]
    {
      assert StatusAt(day, i / 2 + 1) == StatusAt(other, i / 2 + 1);
    }
  }

  /** An entry whose key is not one of "1" to "24" does not change the slots. */
  lemma UnreadKeyIgnored(day: map<string, string>, key: string, status: string)
    requires forall hour :: 1 <= hour <= HoursPerDay ==> key != HourKey(hour)
    ensures Slots(day[key := status]) == Slots(day)
  {
    OnlyHourKeysRead(day[key := status], day);
  }

  /** An hour the feed leaves out is on for both of its halves. */
  lemma MissingHourIsOn(day: map<string, string>, hour: nat)
    requires 1 <= hour <= HoursPerDay && HourKey(hour) !in day
    ensures Slots(day)[2 * (hour - 1)] && Slots(day)[2 * (hour - 1) + 1]
  {
    assert (2 * (hour - 1)) / 2 + 1 == hour;
    assert (2 * (hour - 1) + 1) / 2 + 1 == hour;
  }

  /**
   * One merged period: slots `start` up to (not including) `end`, all with
   * power state `isOn`; `halfHours` is the source's `hours` in half hours.
   * The source stores `start` and `end` already written with
   * `FormatSlotTime`; here they stay slot numbers and are written when the
   * report is rendered.
   */
  datatype Period = Period(start: nat, end: nat, isOn: bool, halfHours: nat)

  /** The end of the run of value `v` that continues at slot `j`. */
  function RunEnd(slots: seq<bool>, v: bool, j: nat): (e: nat)
    requires j <= |slots|
    ensures j <= e <= |slots|
    ensures forall x :: j <= x < e ==> slots[x] == v
    ensures e < |slots| ==> slots[e] != v
    decreases |slots| - j
  {
    if j == |slots| || slots[j] != v then j else RunEnd(slots, v, j + 1)
  }

  /** A run is ended by the first slot of a different value, or by the end of the slots. */
  lemma RunEndAt(slots: seq<bool>, v: bool, j: nat, e: nat)
    requires j <= e <= |slots|
    requires forall x :: j <= x < e ==> slots[x] == v
    requires e < |slots| ==> slots[e] != v
    ensures RunEnd(slots, v, j) == e
  {
  }

  /** The run-length encoding of `slots[i..]`, as periods. */
  function RunsFrom(slots: seq<bool>, i: nat): seq<Period>
    requires i <= |slots|
    decreases |slots| - i
  {
    if i == |slots| then []
    else
      var e := RunEnd(slots, slots[i], i + 1);
      [Period(i, e, slots[i], e - i)] + RunsFrom(slots, e)
  }

  function Merge(slots: seq<bool>): seq<Period> {
    RunsFrom(slots, 0)
  }

  /** Period `p` is non-empty, lies within the slots, has the duration of its slots, and every slot it covers has its state. */
  ghost predicate Uniform(slots: seq<bool>, p: Period) {
    && p.start < p.end <= |slots|
    && p.halfHours == p.end - p.start
    && forall x :: p.start <= x < p.end ==> slots[x] == p.isOn
  }

  /**
   * `ps` tiles `slots[i..]`: the first period starts at `i`, each ends where
   * the next starts, the last ends at the end of the slots, and neighbours
   * differ in state (the merge is maximal).
   */
  ghost predicate TilesFrom(ps: seq<Period>, slots: seq<bool>, i: nat) {
    && i <= |slots|
    && (|ps| == 0 <==> i == |slots|)
    && (|ps| > 0 ==> ps[0].start == i && ps[|ps| - 1].end == |slots|)
    && (forall k :: 0 <= k < |ps| ==> Uniform(slots, ps[k]))
    && (forall k :: 0 <= k < |ps| - 1 ==> ps[k].end == ps[k + 1].start)
    && (forall k :: 0 <= k < |ps| - 1 ==> ps[k].isOn != ps[k + 1].isOn)
  }

  /** The periods cover the whole day, in order, as maximal runs of equal state. */
  ghost predicate IsMaximalCover(ps: seq<Period>, slots: seq<bool>) {
    TilesFrom(ps, slots, 0)
  }

  lemma {:induction false} RunsFromTiles(slots: seq<bool>, i: nat)
    requires i <= |slots|
    ensures TilesFrom(RunsFrom(slots, i), slots, i)
    decreases |slots| - i
  {
    if i < |slots| {
      var e := RunEnd(slots, slots[i], i + 1);
      RunsFromTiles(slots, e);
      var rest := RunsFrom(slots, e);
      assert |rest| > 0 ==> rest[0].isOn == slots[e];
      TilesCons(Period(i, e, slots[i], e - i), rest, slots);
    }
  }

  /** A uniform period followed by a tiling that starts where it ends, in the other state, is a tiling. */
  lemma TilesCons(p: Period, rest: seq<Period>, slots: seq<bool>)
    requires Uniform(slots, p) && TilesFrom(rest, slots, p.end)
    requires |rest| > 0 ==> rest[0].isOn != p.isOn
    ensures TilesFrom([p] + rest, slots, p.start)
  {
    var ps := [p] + rest;
    forall k | 0 <= k < |ps| ensures Uniform(slots, ps[k]) {
      if k > 0 { assert ps[k] == rest[k - 1]; }
    }
    forall k | 0 <= k < |ps| - 1
      ensures ps[k].end == ps[k + 1].start && ps[k].isOn != ps[k + 1].isOn
    {
      if k > 0 { assert ps[k] == rest[k - 1] && ps[k + 1] == rest[k]; }
    }
  }

  lemma {:induction false} TilesFromUnique(ps: seq<Period>, slots: seq<bool>, i: nat)
    requires TilesFrom(ps, slots, i)
    ensures ps == RunsFrom(slots, i)
    decreases |ps|
  {
    if |ps| > 0 {
      FirstTileIsRun(ps, slots, i);
      TilesFromRest(ps, slots, i);
      TilesFromUnique(ps[1..], slots, ps[0].end);
      assert ps == [ps[0]] + ps[1..];
    }
  }

  /** The first period of a tiling is the run that starts the tiled slots. */
  lemma FirstTileIsRun(ps: seq<Period>, slots: seq<bool>, i: nat)
    requires TilesFrom(ps, slots, i) && |ps| > 0
    ensures i < |slots|
    ensures var e := RunEnd(slots, slots[i], i + 1);
      ps[0] == Period(i, e, slots[i], e - i)
  {
    var p := ps[0];
    assert Uniform(slots, p);
    assert p.isOn == slots[i];
    if |ps| > 1 {
      assert Uniform(slots, ps[1]) && ps[1].start == p.end;
    }
    RunEndAt(slots, p.isOn, i + 1, p.end);
  }

  /** What follows the first period of a tiling tiles the rest of the slots. */
  lemma TilesFromRest(ps: seq<Period>, slots: seq<bool>, i: nat)
    requires TilesFrom(ps, slots, i) && |ps| > 0
    ensures TilesFrom(ps[1..], slots, ps[0].end)
  {
    var rest := ps[1..];
    assert Uniform(slots, ps[0]);
    forall k | 0 <= k < |rest| ensures Uniform(slots, rest[k]) {
      assert rest[k] == ps[k + 1];
    }
    forall k | 0 <= k < |rest| - 1
      ensures rest[k].end == rest[k + 1].start && rest[k].isOn != rest[k + 1].isOn
    {
      assert rest[k] == ps[k + 1] && rest[k + 1] == ps[k + 2];
    }
  }

  /**
   * The merged periods are exactly the maximal cover of the slots: `Merge`
   * is one, and it is the only one.
   */
  lemma MergeIffMaximalCover(ps: seq<Period>, slots: seq<bool>)
    ensures IsMaximalCover(ps, slots) <==> ps == Merge(slots)
  {
    RunsFromTiles(slots, 0);
    if IsMaximalCover(ps, slots) {
      TilesFromUnique(ps, slots, 0);
    }
  }

  /**
   * The state of the scan after slot `i - 1`: the current run started at
   * `start` and has not ended before `i`, and the periods closed so far,
   * followed by the runs from `start` on, are the whole merge.
   */
  ghost predicate Scanned(slots: seq<bool>, periods: seq<Period>, start: nat, i: nat) {
    && start < i <= |slots|
    && i <= RunEnd(slots, slots[start], start + 1)
    && periods + RunsFrom(slots, start) == Merge(slots)
  }

  /** One step of the scan: a change of state at `i` closes the current run, and a repeat extends it. */
  lemma ScanStep(slots: seq<bool>, periods: seq<Period>, start: nat, i: nat)
    requires Scanned(slots, periods, start, i) && i < |slots|
    ensures slots[i] != slots[start] ==> Scanned(slots, periods + [Period(start, i, slots[start], i - start)], i, i + 1)
    ensures slots[i] == slots[start] ==> Scanned(slots, periods, start, i + 1)
  {
    var e := RunEnd(slots, slots[start], start + 1);
    if slots[i] != slots[start] {
      assert e == i;
      assert RunsFrom(slots, start) == [Period(start, e, slots[start], e - start)] + RunsFrom(slots, e);
      assert (periods + [Period(start, i, slots[start], i - start)]) + RunsFrom(slots, i)
        == periods + RunsFrom(slots, start);
    }
  }

  /** At the end of the slots the current run is the last period. */
  lemma ScanEnd(slots: seq<bool>, periods: seq<Period>, start: nat)
    requires Scanned(slots, periods, start, |slots|)
    ensures periods + [Period(start, |slots|, slots[start], |slots| - start)] == Merge(slots)
  {
    var e := RunEnd(slots, slots[start], start + 1);
    assert e == |slots|;
    assert RunsFrom(slots, start) == [Period(start, e, slots[start], e - start)] + RunsFrom(slots, e);
  }

  /** The second part of `build_schedule`: one left-to-right scan closing a period at each change of state. */
  method MergeSlots(slots: seq<bool>) returns (periods: seq<Period>)
    ensures periods == Merge(slots)
  {
    if |slots| == 0 {
      return [];
    }
    periods := [];
    var current := slots[0];
    var start: nat := 0;
    for i := 1 to |slots|
      invariant Scanned(slots, periods, start, i)
      invariant current == slots[start]
    {
      ScanStep(slots, periods, start, i);
      if slots[i] != current {
        periods := periods + [Period(start, i, current, i - start)];
        current := slots[i];
        start := i;
      }
    }
    ScanEnd(slots, periods, start);
    periods := periods + [Period(start, |slots|, current, |slots| - start)];
  }

  /** `build_schedule`: the periods of one day. */
  method BuildSchedule(day: map<string, string>) returns (periods: seq<Period>)
    ensures periods == Merge(Slots(day))
    ensures IsMaximalCover(periods, Slots(day))
    ensures |periods| > 0 && periods[0].start == 0 && periods[|periods| - 1].end == SlotsPerDay
    ensures HalvesWhere(periods, true) + HalvesWhere(periods, false) == 2 * HoursPerDay
  {
    var slots := EncodeSlots(day);
    periods := MergeSlots(slots);
    MergeIffMaximalCover(periods, slots);
    CoverTotals(periods, slots);
  }

  /** The summed duration, in half hours, of the periods whose state is `on`. */
  function HalvesWhere(ps: seq<Period>, on: bool): nat
    decreases |ps|
  {
    if |ps| == 0 then 0
    else HalvesWhere(ps[..|ps| - 1], on) + (if ps[|ps| - 1].isOn == on then ps[|ps| - 1].halfHours else 0)
  }

  /** The number of slots from `i` on that have state `on`. */
  function CountFrom(slots: seq<bool>, i: nat, on: bool): nat
    requires i <= |slots|
    decreases |slots| - i
  {
    if i == |slots| then 0 else (if slots[i] == on then 1 else 0) + CountFrom(slots, i + 1, on)
  }

  lemma {:induction false} CountSplit(slots: seq<bool>, i: nat, on: bool)
    requires i <= |slots|
    ensures CountFrom(slots, i, on) + CountFrom(slots, i, !on) == |slots| - i
    decreases |slots| - i
  {
    if i < |slots| {
      CountSplit(slots, i + 1, on);
    }
  }

  lemma {:induction false} CountUniformRun(slots: seq<bool>, i: nat, e: nat, v: bool, on: bool)
    requires i <= e <= |slots|
    requires forall x :: i <= x < e ==> slots[x] == v
    ensures CountFrom(slots, i, on) == (if v == on then e - i else 0) + CountFrom(slots, e, on)
    decreases e - i
  {
    if i < e {
      CountUniformRun(slots, i + 1, e, v, on);
    }
  }

  lemma {:induction false} HalvesWhereFront(ps: seq<Period>, on: bool)
    requires |ps| > 0
    ensures HalvesWhere(ps, on) == (if ps[0].isOn == on then ps[0].halfHours else 0) + HalvesWhere(ps[1..], on)
    decreases |ps|
  {
    if |ps| > 1 {
      HalvesWhereFront(ps[..|ps| - 1], on);
      assert ps[..|ps| - 1][1..] == ps[1..][..|ps[1..]| - 1];
    }
  }

  lemma {:induction false} TilesCount(ps: seq<Period>, slots: seq<bool>, i: nat, on: bool)
    requires TilesFrom(ps, slots, i)
    ensures HalvesWhere(ps, on) == CountFrom(slots, i, on)
    decreases |ps|
  {
    if |ps| > 0 {
      var p := ps[0];
      assert Uniform(slots, p);
      HalvesWhereFront(ps, on);
      CountUniformRun(slots, i, p.end, p.isOn, on);
      var rest := ps[1..];
      assert TilesFrom(rest, slots, p.end) by {
        if |ps| > 1 {
          assert ps[1].start == p.end;
        }
        forall k | 0 <= k < |rest| ensures Uniform(slots, rest[k]) {
          assert rest[k] == ps[k + 1];
        }
        forall k | 0 <= k < |rest| - 1
          ensures rest[k].end == rest[k + 1].start && rest[k].isOn != rest[k + 1].isOn
        {
          assert rest[k] == ps[k + 1] && rest[k + 1] == ps[k + 2];
        }
      }
      TilesCount(rest, slots, p.end, on);
    }
  }

  /**
   * The on-time of a maximal cover is the number of on-slots and its
   * off-time the number of off-slots; together they are the whole day.
   */
  lemma CoverTotals(ps: seq<Period>, slots: seq<bool>)
    requires IsMaximalCover(ps, slots)
    ensures HalvesWhere(ps, true) == CountFrom(slots, 0, true)
    ensures HalvesWhere(ps, false) == CountFrom(slots, 0, false)
    ensures HalvesWhere(ps, true) + HalvesWhere(ps, false) == |slots|
  {
    TilesCount(ps, slots, 0, true);
    TilesCount(ps, slots, 0, false);
    CountSplit(slots, 0, true);
  }

  /** The feed key of an hour names that hour alone. */
  lemma HourKeyIs(hour: nat, other: nat)
    ensures HourKey(hour) == NatToString(other) <==> hour == other
  {
    if HourKey(hour) == NatToString(other) {
      NatToStringInjective(hour, other);
    }
  }

  /** Hours "1" and "2" off, the rest left out: off 00:00-02:00, on 02:00-24:00. */
  lemma TwoHoursOffExample()
    ensures Merge(Slots(map["1" := "no", "2" := "no"])) == [Period(0, 4, false, 4), Period(4, 48, true, 44)]
  {
    var slots := Slots(map["1" := "no", "2" := "no"]);
    TwoHoursOffSlots();
    var ps := [Period(0, 4, false, 4), Period(4, 48, true, 44)];
    assert Uniform(slots, ps[0]) && Uniform(slots, ps[1]);
    assert TilesFrom(ps, slots, 0);
    MergeIffMaximalCover(ps, slots);
  }

  lemma TwoHoursOffSlots()
    ensures forall i :: 0 <= i < SlotsPerDay ==> Slots(map["1" := "no", "2" := "no"])[i] == (i >= 4)
  {
    var day := map["1" := "no", "2" := "no"];
    var slots := Slots(day);
    assert NatToString(1) == "1" && NatToString(2) == "2";
    forall i | 0 <= i < SlotsPerDay ensures slots[i] == (i >= 4) {
      var hour := i / 2 + 1;
      HourKeyIs(hour, 1);
      HourKeyIs(hour, 2);
    }
  }

  /** Hour "1" off and hour "2" on: off 00:00-01:00 only, since label "1" covers the first hour alone. */
  lemma FirstHourOffExample()
    ensures Merge(Slots(map["1" := "no", "2" := "yes"])) == [Period(0, 2, false, 2), Period(2, 48, true, 46)]
  {
    var slots := Slots(map["1" := "no", "2" := "yes"]);
    FirstHourOffSlots();
    var ps := [Period(0, 2, false, 2), Period(2, 48, true, 46)];
    assert Uniform(slots, ps[0]) && Uniform(slots, ps[1]);
    assert TilesFrom(ps, slots, 0);
    MergeIffMaximalCover(ps, slots);
  }

  lemma FirstHourOffSlots()
    ensures forall i :: 0 <= i < SlotsPerDay ==> Slots(map["1" := "no", "2" := "yes"])[i] == (i >= 2)
  {
    var day := map["1" := "no", "2" := "yes"];
    var slots := Slots(day);
    assert NatToString(1) == "1" && NatToString(2) == "2";
    forall i | 0 <= i < SlotsPerDay ensures slots[i] == (i >= 2) {
      var hour := i / 2 + 1;
      HourKeyIs(hour, 1);
      HourKeyIs(hour, 2);
    }
  }

  /** Hour "5" is "first", the rest left out: off for the half hour 04:00-04:30 only. */
  lemma FirstHalfOffExample()
    ensures Merge(Slots(map["5" := "first"]))
      == [Period(0, 8, true, 8), Period(8, 9, false, 1), Period(9, 48, true, 39)]
  {
    var slots := Slots(map["5" := "first"]);
    FirstHalfOffSlots();
    var ps := [Period(0, 8, true, 8), Period(8, 9, false, 1), Period(9, 48, true, 39)];
    assert Uniform(slots, ps[0]) && Uniform(slots, ps[1]) && Uniform(slots, ps[2]);
    assert TilesFrom(ps, slots, 0);
    MergeIffMaximalCover(ps, slots);
  }

  lemma FirstHalfOffSlots()
    ensures forall i :: 0 <= i < SlotsPerDay ==> Slots(map["5" := "first"])[i] == (i != 8)
  {
    var day := map["5" := "first"];
    var slots := Slots(day);
    assert NatToString(5) == "5";
    assert Interpret("first") == Halves(false, true);
    forall i | 0 <= i < SlotsPerDay ensures slots[i] == (i != 8) {
      var hour := i / 2 + 1;
      HourKeyIs(hour, 5);
      if hour == 5 {
        assert StatusAt(day, hour) == "first";
      } else {
        assert StatusAt(day, hour) == DefaultStatus;
      }
    }
  }
}

=== FILE: strings.dfy ===
/**
 * The handful of Python `str` operations the report code relies on:
 * `sep.join(parts)`, `s.split(sep)`, `s.replace(pat, "")` and `s.strip()`.
 */
module Strings {

  import opened Wrappers

  /** `sep.join(parts)`. */
  function Join(parts: seq<string>, sep: string): string
    decreases |parts|
  {
    if |parts| == 0 then ""
    else if |parts| == 1 then parts[0]
    else parts[0] + sep + Join(parts[1..], sep)
  }

  /** Joining no part adds no character that is neither in a part nor in the separator. */
  lemma {:induction false} JoinChars(parts: seq<string>, sep: string, c: char)
    requires c !in sep
    requires forall k :: 0 <= k < |parts| ==> c !in parts[k]
    ensures c !in Join(parts, sep)
    decreases |parts|
  {
    if |parts| > 1 {
      JoinChars(parts[1..], sep, c);
    }
  }

  /** Joining two non-empty lists of parts puts the separator between their joins. */
  lemma {:induction false} JoinAppend(a: seq<string>, b: seq<string>, sep: string)
    requires |a| >= 1 && |b| >= 1
    ensures Join(a + b, sep) == Join(a, sep) + sep + Join(b, sep)
    decreases |a|
  {
    assert a + b == [a[0]] + (a[1..] + b);
    JoinCons(a[0], a[1..] + b, sep);
    if |a| > 1 {
      JoinAppend(a[1..], b, sep);
      assert a == [a[0]] + a[1..];
      JoinCons(a[0], a[1..], sep);
    }
  }

  /** Appending a blank line and two more lines to a text of lines. */
  lemma JoinBlankAndTwo(lines: seq<string>, x: string, y: string, sep: string)
    requires |lines| >= 1
    ensures Join(lines + ["", x, y], sep) == Join(lines, sep) + sep + sep + x + sep + y
  {
    JoinAppend(lines, ["", x, y], sep);
    JoinCons("", [x, y], sep);
    JoinCons(x, [y], sep);
    assert ["", x, y] == [""] + [x, y] && [x, y] == [x] + [y];
  }

  /** The last two lines of such a text, with the separators before them, are its end. */
  lemma LastTwoLines(text: string, x: string, y: string, sep: string)
    ensures var t := text + sep + sep + x + sep + y;
      var tail := sep + x + sep + y;
      |tail| <= |t| && t[|t| - |tail|..] == tail
  {
    var t := text + sep + sep + x + sep + y;
    var tail := sep + x + sep + y;
    assert t == (text + sep) + tail;
  }

  predicate OccursAt(s: string, pat: string, j: nat) {
    j + |pat| <= |s| && s[j..j + |pat|] == pat
  }

  predicate Contains(s: string, pat: string) {
    exists j :: 0 <= j <= |s| && OccursAt(s, pat, j)
  }

  /** The first position at or after `i` where `pat` occurs in `s`. */
  function FindFrom(s: string, pat: string, i: nat): (r: Option<nat>)
    requires i <= |s|
    ensures r.Some? ==> i <= r.value && OccursAt(s, pat, r.value)
    ensures r.Some? ==> forall j :: i <= j < r.value ==> !OccursAt(s, pat, j)
    ensures r.None? ==> forall j :: i <= j <= |s| ==> !OccursAt(s, pat, j)
    decreases |s| - i
  {
    if i + |pat| > |s| then None
    else if s[i..i + |pat|] == pat then Some(i)
    else FindFrom(s, pat, i + 1)
  }

  /**
   * `s.split(sep)`: the pieces between the non-overlapping occurrences of
   * `sep`, found left to right; a string without `sep` is one piece.
   */
  function Split(s: string, sep: string): (parts: seq<string>)
    requires |sep| > 0
    ensures |parts| >= 1
    decreases |s|
  {
    match FindFrom(s, sep, 0)
    case None => [s]
    case Some(i) => [s[..i]] + Split(s[i + |sep|..], sep)
  }

  /** Splitting and joining again with the same separator restores the text. */
  lemma {:induction false} JoinSplit(s: string, sep: string)
    requires |sep| > 0
    ensures Join(Split(s, sep), sep) == s
    decreases |s|
  {
    var f := FindFrom(s, sep, 0);
    if f.Some? {
      var i := f.value;
      var rest := s[i + |sep|..];
      SplitAtFirst(s, sep);
      JoinSplit(rest, sep);
      JoinCons(s[..i], Split(rest, sep), sep);
      assert s == s[..i] + sep + rest;
    }
  }

  /** Where `sep` first occurs at `i`, the split is the text before it followed by the split of the text after it. */
  lemma SplitAtFirst(s: string, sep: string)
    requires |sep| > 0 && FindFrom(s, sep, 0).Some?
    ensures Split(s, sep)
      == [s[..FindFrom(s, sep, 0).value]] + Split(s[FindFrom(s, sep, 0).value + |sep|..], sep)
  {
  }

  /** Joining a part in front of at least one other puts the separator between them. */
  lemma JoinCons(p: string, parts: seq<string>, sep: string)
    requires |parts| >= 1
    ensures Join([p] + parts, sep) == p + sep + Join(parts, sep)
  {
    assert ([p] + parts)[1..] == parts;
  }

  /** No piece of a split contains the separator. */
  lemma {:induction false} SplitPartsAvoidSeparator(s: string, sep: string)
    requires |sep| > 0
    ensures forall k :: 0 <= k < |Split(s, sep)| ==> !Contains(Split(s, sep)[k], sep)
    decreases |s|
  {
    var parts := Split(s, sep);
    var f := FindFrom(s, sep, 0);
    if f.Some? {
      var i := f.value;
      var rest := s[i + |sep|..];
      SplitPartsAvoidSeparator(rest, sep);
      assert parts == [s[..i]] + Split(rest, sep);
      PrefixBeforeFirstOccurrence(s, sep, i);
    }
  }

  lemma PrefixBeforeFirstOccurrence(s: string, sep: string, i: nat)
    requires |sep| > 0 && i <= |s|
    requires forall j :: 0 <= j < i ==> !OccursAt(s, sep, j)
    ensures !Contains(s[..i], sep)
  {
    forall j | 0 <= j <= i && OccursAt(s[..i], sep, j)
      ensures false
    {
      assert s[..i][j..j + |sep|] == s[j..j + |sep|];
      assert OccursAt(s, sep, j);
    }
  }

  /**
   * Splitting a join gives the parts back when the separator's second
   * character differs from its first and appears in no part: then the
   * separator can only occur where the join put it.
   */
  lemma {:induction false} SplitJoin(parts: seq<string>, sep: string)
    requires |parts| >= 1 && |sep| >= 2 && sep[0] != sep[1]
    requires forall k :: 0 <= k < |parts| ==> sep[1] !in parts[k]
    ensures Split(Join(parts, sep), sep) == parts
    decreases |parts|
  {
    var p := parts[0];
    if |parts| == 1 {
      assert FindFrom(p, sep, 0).None?;
    } else {
      var rest := Join(parts[1..], sep);
      var s := p + sep + rest;
      assert OccursAt(s, sep, |p|) by {
        assert s[|p|..|p| + |sep|] == sep;
      }
      assert Join(parts, sep) == s;
      SeparatorFirstAfter(p, sep, rest);
      assert s[..|p|] == p;
      assert s[|p| + |sep|..] == rest;
      assert Split(s, sep) == [p] + Split(rest, sep);
      SplitJoin(parts[1..], sep);
      assert parts == [p] + parts[1..];
    }
  }

  /** In `p + sep + rest`, the first occurrence of `sep` is the one after `p` when `p` lacks the separator's second character. */
  lemma SeparatorFirstAfter(p: string, sep: string, rest: string)
    requires |sep| >= 2 && sep[0] != sep[1] && sep[1] !in p
    ensures FindFrom(p + sep + rest, sep, 0) == Some(|p|)
  {
    var s := p + sep + rest;
    assert OccursAt(s, sep, |p|) by {
      assert s[|p|..|p| + |sep|] == sep;
    }
    forall j | 0 <= j < |p| ensures !OccursAt(s, sep, j) {
      assert s[j + 1] != sep[1] by {
        if j + 1 < |p| {
          assert s[j + 1] == p[j + 1];
        } else {
          assert s[j + 1] == sep[0];
        }
      }
      assert j + |sep| <= |s| ==> s[j..j + |sep|][1] == s[j + 1];
    }
  }

  /** `s.replace(pat, "")`: drop the non-overlapping occurrences of `pat`, left to right. */
  function RemoveAll(s: string, pat: string): (r: string)
    requires |pat| > 0
    ensures |r| <= |s|
    ensures forall c :: c in r ==> c in s
    decreases |s|
  {
    if |s| < |pat| then s
    else if s[..|pat|] == pat then RemoveAll(s[|pat|..], pat)
    else [s[0]] + RemoveAll(s[1..], pat)
  }

  /** Text in which `pat` does not occur is left as it is. */
  lemma {:induction false} RemoveAllAbsent(s: string, pat: string)
    requires |pat| > 0 && !Contains(s, pat)
    ensures RemoveAll(s, pat) == s
    decreases |s|
  {
    if |s| >= |pat| {
      assert !OccursAt(s, pat, 0);
      assert s[..|pat|] != pat;
      forall j | 0 <= j <= |s| - 1 && OccursAt(s[1..], pat, j)
        ensures false
      {
        assert s[1..][j..j + |pat|] == s[j + 1..j + 1 + |pat|];
        assert OccursAt(s, pat, j + 1);
      }
      RemoveAllAbsent(s[1..], pat);
    }
  }

  /** A pattern whose first character is missing from `s` does not occur in `s`. */
  lemma AbsentWithoutFirstChar(s: string, pat: string)
    requires |pat| > 0 && pat[0] !in s
    ensures !Contains(s, pat)
  {
    forall j | 0 <= j <= |s| ensures !OccursAt(s, pat, j) {
      if j + |pat| <= |s| {
        assert s[j..j + |pat|][0] == s[j];
      }
    }
  }

  /** A leading occurrence of `pat` is removed and the rest is processed as before. */
  lemma RemoveAllPrefix(pat: string, t: string)
    requires |pat| > 0
    ensures RemoveAll(pat + t, pat) == RemoveAll(t, pat)
  {
    assert (pat + t)[..|pat|] == pat;
    assert (pat + t)[|pat|..] == t;
  }

  /**
   * `s.replace(pat, "") == "".join(s.split(pat))`: removing the pattern is
   * splitting at it and joining the pieces with nothing between them.
   */
  lemma {:induction false} RemoveAllIsJoinOfSplit(s: string, pat: string)
    requires |pat| > 0
    ensures RemoveAll(s, pat) == Join(Split(s, pat), "")
    decreases |s|
  {
    var f := FindFrom(s, pat, 0);
    if f.None? {
      RemoveAllAbsent(s, pat);
    } else {
      var i := f.value;
      var rest := s[i + |pat|..];
      RemoveAllBefore(s, pat, i);
      assert s[i..] == pat + rest;
      RemoveAllPrefix(pat, rest);
      RemoveAllIsJoinOfSplit(rest, pat);
      SplitAtFirst(s, pat);
      JoinCons(s[..i], Split(rest, pat), "");
    }
  }

  /** Where `pat` does not start before `i`, the text before `i` is kept as it is. */
  lemma {:induction false} RemoveAllBefore(s: string, pat: string, i: nat)
    requires |pat| > 0 && i <= |s|
    requires forall j :: 0 <= j < i ==> !OccursAt(s, pat, j)
    ensures RemoveAll(s, pat) == s[..i] + RemoveAll(s[i..], pat)
    decreases i
  {
    if i > 0 {
      if |s| < |pat| {
        assert RemoveAll(s[i..], pat) == s[i..];
        assert s == s[..i] + s[i..];
      } else {
        assert !OccursAt(s, pat, 0);
        NoOccurrenceInTail(s, pat, i);
        RemoveAllBefore(s[1..], pat, i - 1);
        RemoveAllBeforeStep(s, pat, i);
      }
    }
  }

  /** The step of `RemoveAllBefore`: its statement for `s[1..]` gives it for `s`. */
  lemma RemoveAllBeforeStep(s: string, pat: string, i: nat)
    requires |pat| > 0 && 0 < i <= |s| && |pat| <= |s| && !OccursAt(s, pat, 0)
    requires RemoveAll(s[1..], pat) == s[1..][..i - 1] + RemoveAll(s[1..][i - 1..], pat)
    ensures RemoveAll(s, pat) == s[..i] + RemoveAll(s[i..], pat)
  {
    RemoveAllKeepsHead(s, pat);
    assert s[1..][i - 1..] == s[i..];
    ConsPrefix(s, i, RemoveAll(s[1..], pat), RemoveAll(s[i..], pat));
  }

  lemma ConsPrefix(s: string, i: nat, a: string, b: string)
    requires 0 < i <= |s| && a == s[1..][..i - 1] + b
    ensures [s[0]] + a == s[..i] + b
  {
    assert s[..i] == [s[0]] + s[1..][..i - 1];
  }

  /** Text that does not start with `pat` keeps its first character. */
  lemma RemoveAllKeepsHead(s: string, pat: string)
    requires |pat| > 0 && |pat| <= |s| && !OccursAt(s, pat, 0)
    ensures RemoveAll(s, pat) == [s[0]] + RemoveAll(s[1..], pat)
  {
    assert s[..|pat|] != pat;
  }

  lemma NoOccurrenceInTail(s: string, pat: string, i: nat)
    requires 0 < i <= |s|
    requires forall j :: 0 <= j < i ==> !OccursAt(s, pat, j)
    ensures forall j :: 0 <= j < i - 1 ==> !OccursAt(s[1..], pat, j)
  {
    forall j | 0 <= j < i - 1 ensures !OccursAt(s[1..], pat, j) {
      assert !OccursAt(s, pat, j + 1);
      if j + |pat| <= |s| - 1 {
        assert s[1..][j..j + |pat|] == s[j + 1..j + 1 + |pat|];
      }
    }
  }

  /** The characters Python's `str.isspace()` accepts. */
  predicate IsSpace(c: char) {
    || c == ' '
    || '\t' <= c <= '\r'
    || '\U{1c}' <= c <= '\U{1f}'
    || c == '\U{85}' || c == '\U{a0}' || c == '\U{1680}'
    || '\U{2000}' <= c <= '\U{200a}'
    || c == '\U{2028}' || c == '\U{2029}' || c == '\U{202f}'
    || c == '\U{205f}' || c == '\U{3000}'
  }

  predicate AllSpace(t: string) {
    forall k :: 0 <= k < |t| ==> IsSpace(t[k])
  }

  function TrimStart(s: string): (r: string)
    ensures |r| <= |s| && r == s[|s| - |r|..]
    ensures |r| > 0 ==> !IsSpace(r[0])
    ensures |r| == |s| <==> (|s| == 0 || !IsSpace(s[0]))
    decreases |s|
  {
    if |s| > 0 && IsSpace(s[0]) then TrimStart(s[1..]) else s
  }

  /** Everything `TrimStart` drops is whitespace. */
  lemma {:induction false} TrimStartDropsSpace(s: string)
    ensures AllSpace(s[..|s| - |TrimStart(s)|])
    decreases |s|
  {
    if |s| > 0 && IsSpace(s[0]) {
      var r := TrimStart(s[1..]);
      TrimStartDropsSpace(s[1..]);
      assert s[..|s| - |r|] == [s[0]] + s[1..][..|s| - 1 - |r|];
    }
  }

  function TrimEnd(s: string): (r: string)
    ensures |r| <= |s| && r == s[..|r|]
    ensures |r| > 0 ==> !IsSpace(r[|r| - 1])
    ensures |r| == |s| <==> (|s| == 0 || !IsSpace(s[|s| - 1]))
    decreases |s|
  {
    if |s| > 0 && IsSpace(s[|s| - 1]) then TrimEnd(s[..|s| - 1]) else s
  }

  /** Everything `TrimEnd` drops is whitespace. */
  lemma {:induction false} TrimEndDropsSpace(s: string)
    ensures AllSpace(s[|TrimEnd(s)|..])
    decreases |s|
  {
    if |s| > 0 && IsSpace(s[|s| - 1]) {
      var r := TrimEnd(s[..|s| - 1]);
      TrimEndDropsSpace(s[..|s| - 1]);
      assert s[|r|..] == s[..|s| - 1][|r|..] + [s[|s| - 1]];
    }
  }

  /** `s.strip()`: whitespace removed from both ends. */
  function Strip(s: string): (r: string)
    ensures |r| > 0 ==> !IsSpace(r[0]) && !IsSpace(r[|r| - 1])
  {
    TrimEnd(TrimStart(s))
  }

  /** What `Strip` keeps is one slice of the text, starting where `TrimStart` stopped. */
  lemma StripKeepsSlice(s: string)
    ensures var i := |s| - |TrimStart(s)|;
      i + |Strip(s)| <= |s| && Strip(s) == s[i..i + |Strip(s)|]
  {
    var t := TrimStart(s);
    assert TrimEnd(t) == t[..|TrimEnd(t)|];
  }

  /** Everything in front of that slice is whitespace. */
  lemma StripDropsLeadingSpace(s: string)
    ensures AllSpace(s[..|s| - |TrimStart(s)|])
  {
    TrimStartDropsSpace(s);
  }

  /** Everything behind that slice is whitespace. */
  lemma StripDropsTrailingSpace(s: string)
    ensures |s| - |TrimStart(s)| + |Strip(s)| <= |s|
    ensures AllSpace(s[|s| - |TrimStart(s)| + |Strip(s)|..])
  {
    var t := TrimStart(s);
    var r := TrimEnd(t);
    TrimEndDropsSpace(t);
    SuffixTail(s, t, |r|);
  }

  lemma SuffixTail(s: string, t: string, j: nat)
    requires |t| <= |s| && t == s[|s| - |t|..] && j <= |t|
    ensures s[|s| - |t| + j..] == t[j..]
  {
  }

  /**
   * Reading a file in text mode (Python's universal newlines): each `"\r\n"`
   * and each lone `'\r'` becomes `'\n'`.
   */
  function UniversalNewlines(s: string): (r: string)
    ensures '\r' !in r
    ensures '\r' !in s ==> r == s
    decreases |s|
  {
    if |s| == 0 then ""
    else if s[0] == '\r' then "\n" + UniversalNewlines(if |s| > 1 && s[1] == '\n' then s[2..] else s[1..])
    else [s[0]] + UniversalNewlines(s[1..])
  }

  /** Stripping leaves a string unchanged exactly when neither end is whitespace. */
  lemma StripFixedIff(s: string)
    ensures Strip(s) == s <==> (|s| == 0 || (!IsSpace(s[0]) && !IsSpace(s[|s| - 1])))
  {
    var t := TrimStart(s);
    if |s| > 0 && !IsSpace(s[0]) && !IsSpace(s[|s| - 1]) {
      assert t == s;
    }
  }
}

=== FILE: wrappers.dfy ===
/** The optional value used wherever the source returns `None` or a value. */
module Wrappers {

  datatype Option<+T> = None | Some(value: T)
}
